=== FILE: README.md ===
# flightloggin2 CSV import, modelled in Dafny

This project models the CSV logbook import of flightloggin2
(`manage/import_class.py`). An uploaded file goes through these steps:

1. A missing file is refused.
2. The delimiter is sniffed from the first 10,000 characters, or tab is forced. A sniffed delimiter other than a comma or a tab is replaced by a tab.
3. The header row is read. Each title is cleaned (upper-cased, stripped, `"` and `.` dropped, CR LF turned into a space) and mapped through the legacy column table.
4. Every data row is classified by an external line classifier and handed to the handler for its line type: flight, non-flight or event, records, plane, or location. Location lines are ignored and any other type aborts the run.
5. `PreviewImport` renders each line. `DatabaseImport` also saves it. For a flight, non-flight or plane line it appends a success or failure banner row (`status_decorator`); a records line gets the bare preview. Plane tags are normalised: comma-split, trimmed, quoted when they contain a space, and space-joined.

Modules, one per concern:

- `PyStr`: the Python 2 byte-string methods the importer calls.
- `Headers`: title normalisation.
- `Dialects`: the delimiter policy.
- `Dispatch`: the `action` loop, written as a fold into four output lists. It threads an abstract store so that the preview and the database importer are both instances.
- `Status`: the banner.
- `Planes`: the plane lookup key, tag normalisation and the plane table.
- `Importers`: the two importers' handlers.
- `Pipeline`: a whole run with its error order.

The source's cleaning order matters. Stripping comes before `"` and `.` are dropped, so the cleaned form of `a .` is `A ` with a trailing space. The cleaned form is therefore not always stripped. For titles without `"` and `.`, the model proves that the cleaned title is stripped (`Headers.CleanStrippedWithoutMarks`) and that cleaning is idempotent (`Headers.CleanIdempotentWithoutMarks`). `Headers.CleanKeepsSpaceBeforePeriod` shows with `a .` that both can fail for other titles.

Tag normalisation is checked against a reader, `Planes.ParseTags`: a reader of space-separated tag lists in which a quoted run is one tag. `Planes.NormalizeTagsCons` fixes the normalised text piece by piece. `Planes.TagsRoundTrip` proves that reading a normalised list back gives the stripped, non-empty comma-separated tags in order.

External collaborators are parameters:

- the line classifier `PrepareLine`;
- the column table `COLUMN_NAMES`;
- `csv.Sniffer`, `csv.reader` and `DictReader`;
- the HTML preview renderings;
- the Django forms' validation results;
- the plane table's lookup answer;
- the exception a plane save raises.

## Model

| member | source | states |
|---|---|---|
| PyStr.UpperChar | manage/import_class.py:121 | one character upper-cased: `a`-`z` become `A`-`Z` letter for letter, every other character is kept |
| PyStr.Upper | manage/import_class.py:121 | `upper()` keeps the length and upper-cases each character on its own (so `a`-`z` become `A`-`Z` and nothing else changes), leaving no lower-case ASCII letter |
| PyStr.UpperKeepsUpper | manage/import_class.py:121 | a string without lower-case letters is unchanged by `upper()` |
| PyStr.Strip | manage/import_class.py:121 | `strip()` is never longer than its input and neither begins nor ends with whitespace |
| PyStr.StripRemovesOnlySpace | manage/import_class.py:121 | `strip()` yields a contiguous slice of the input with only whitespace cut at either end; a stripped string is left unchanged |
| PyStr.Remove | manage/import_class.py:121-122 | `replace(c, '')` is never longer than its input, keeps exactly the characters other than `c`, and changes nothing when `c` is absent |
| PyStr.RemoveAppend | manage/import_class.py:121-122 | removing from a concatenation is concatenating the removals; with `RemoveSingle` this fixes the order and multiplicity of the kept characters |
| PyStr.RemoveSingle | manage/import_class.py:121-122 | on one character, `c` is dropped and any other character is kept |
| PyStr.RemoveCount | manage/import_class.py:121-122 | the result is shorter than the input by exactly the number of occurrences of `c` |
| PyStr.ReplaceCrlf | manage/import_class.py:121-122 | `replace("\r\n", " ")` never lengthens the string and keeps the first character unless it starts a CR LF pair, which becomes a space |
| PyStr.ReplaceCrlfRemovesPairs | manage/import_class.py:121-122 | no CR LF pair survives `replace("\r\n", " ")` |
| PyStr.ReplaceCrlfAddsOnlySpaces | manage/import_class.py:121-122 | every character after the replacement was in the input or is a space |
| PyStr.ReplaceCrlfIdentity | manage/import_class.py:121-122 | a string without CR LF comes back unchanged |
| PyStr.ReplaceCrlfKeepsLast | manage/import_class.py:121-122 | the last character survives the replacement unless it is a line feed |
| PyStr.ReplaceCrlfAppend | manage/import_class.py:121-122 | cut anywhere except inside a CR LF pair, the parts of a string are replaced independently |
| PyStr.ReplaceCrlfAtPair | manage/import_class.py:121-122 | each CR LF pair becomes exactly one space and the text on either side is replaced on its own; with `ReplaceCrlfIdentity` this determines the result for every string |
| PyStr.Find | manage/import_class.py:277 | `find` gives -1 exactly when the character is absent, and otherwise the index of its first occurrence |
| PyStr.Split | manage/import_class.py:275 | `split(sep)` gives one more piece than there are separators, no piece holds the separator, and joining with the separator gives the input back |
| PyStr.Join | manage/import_class.py:282 | `" ".join(pieces)` is empty for no pieces and otherwise starts with the first piece |
| PyStr.SplitJoinRoundTrip | manage/import_class.py:275-282 | pieces without the separator, joined with it and split again, come back unchanged: `split` inverts `join` |
| PyStr.DecimalString | manage/import_class.py:214 | the rendering of a primary key is a non-empty digit string with no leading zero except for zero |
| PyStr.DecimalRoundTrip | manage/import_class.py:214 | the digits of the rendering, read back in base ten, denote the key itself |
| Headers.Clean | manage/import_class.py:120-122 | a cleaned title holds no lower-case letter, no `"`, no `.` and no CR LF, and is no longer than the title; its text is fixed by `Headers.CleanSteps` with the contracts of `Upper`, `Strip`, `Remove` and `ReplaceCrlf` |
| Headers.CleanSteps | manage/import_class.py:121-122 | a title is cleaned by upper-casing, stripping, dropping `"`, dropping `.` and replacing CR LF with a space, in that order |
| Headers.CleanFixesCanonical | manage/import_class.py:121-122 | a title already in the clean alphabet and without surrounding whitespace is its own cleaned form, so cleaning keeps the title's text |
| Headers.NormalizeTitle | manage/import_class.py:121-126 | a title whose cleaned form is a key of the column table becomes the table's value; otherwise it becomes its cleaned form |
| Headers.SwapOutTitles | manage/import_class.py:111-128 | the normalised header has one entry per title and entry `i` is the normalisation of title `i` |
| Headers.SwapOutTitlesConcat | manage/import_class.py:118-128 | normalising a concatenation is concatenating the normalisations: no title affects another |
| Headers.NormalizedTitlesAreClean | manage/import_class.py:118-128 | when the table's values are clean, every normalised title is clean |
| Headers.CleanStrippedWithoutMarks | manage/import_class.py:121-122 | a title without `"` and `.` cleans to a stripped string |
| Headers.CleanIdempotentWithoutMarks | manage/import_class.py:121-122 | cleaning a title without `"` and `.` twice is cleaning it once |
| Headers.CleanKeepsSpaceBeforePeriod | manage/import_class.py:121-122 | `a .` cleans to `A `, which is not stripped, and cleaning again changes it |
| Headers.CanonicalHeadersUnchanged | manage/import_class.py:118-128 | a header row whose titles are stripped, in the clean alphabet and mapped to themselves by the table is left as it is |
| Dialects.Sample | manage/import_class.py:32-42 | the sniffing sample is the first 10,000 characters, or the whole file when shorter |
| Dialects.ChooseDialect | manage/import_class.py:44-62 | the delimiter is always a comma or a tab; the choice fails exactly when tab is not forced and sniffing fails, and then with `InvalidCSVError`; forcing gives `excel_tab`; a sniffed dialect keeps every modelled attribute but an untrusted delimiter, which becomes a tab |
| Dialects.ExcelTab | manage/import_class.py:62 | `csv.excel_tab`: tab delimiter, `"` quote character, doubled quotes, no initial-space skipping, CR LF line terminator, minimal quoting |
| Dialects.ForcedTabIgnoresSniffer | manage/import_class.py:57-62 | with `force_tsv` any two sniffers give the same dialect, and its delimiter is a tab |
| Dialects.DialectDependsOnlyOnSample | manage/import_class.py:32-49 | files that agree on their first 10,000 characters get the same dialect |
| Dispatch.KindOf | manage/import_class.py:91-107 | each handled name selects its own branch (`flight`, `nonflight` or `event`, `records`, `plane`, `location`), each exactly for those names, and any other type is unrecognised |
| Dispatch.BucketOf | manage/import_class.py:91-104 | a flight line feeds `flight_out`, a non-flight or event line `non_out`, a records line `records_out` and a plane line `plane_out`; location and unrecognised lines feed none |
| Dispatch.NoOutput | manage/import_class.py:27-30 | all four output lists start empty |
| Dispatch.Step | manage/import_class.py:91-104 | a recognised line appends its handler's result to its own list and leaves the other three alone; a location line changes nothing |
| Dispatch.Action | manage/import_class.py:88-107 | the loop fails exactly when some line type is unrecognised, and then reports an unrecognised type |
| Dispatch.ActionKeepsEarlierEntries | manage/import_class.py:88-107 | whatever happens, each list before the loop is a prefix of the list after it |
| Dispatch.StatelessActionIsFilterMap | manage/import_class.py:88-104 | with store-independent handlers and no unrecognised line, list `b` is the rendering of exactly the lines of its kind in file order, and the store is untouched |
| Dispatch.ActionIsFilterMap | manage/import_class.py:88-104 | with handlers whose renderings do not depend on the store, whatever they persist, and no unrecognised line, list `b` receives the renderings of exactly the lines of its kind, in file order |
| Dispatch.ActionCounts | manage/import_class.py:88-104 | each list grows by the number of lines of its kind, and together by the number of non-location lines |
| Dispatch.ActionStopsAtFirstUnrecognised | manage/import_class.py:103-107 | the first unrecognised line ends the run in the state the earlier lines left, with that line's type as the error |
| Dispatch.ActionGathers | manage/import_class.py:88-104 | when every handler adds its line's contribution to some part of the store, a loop without unrecognised lines adds the contributions of all lines, in file order |
| Dispatch.DropLocations | manage/import_class.py:103-104 | dropping location lines removes exactly as many lines as there are location lines |
| Dispatch.LocationsChangeNothing | manage/import_class.py:103-104 | removing the location lines from the input changes neither the lists nor the store nor the outcome |
| Status.BadBanner | manage/import_class.py:302-303 | the failure row begins with its fixed head, ends with its fixed tail `</td></tr>`, and holds exactly the message in between |
| Status.StatusDecorator | manage/import_class.py:294-305 | the result is the preview rendering followed by one banner; the banner is the success row exactly when the message is `'good'`, and otherwise the failure row carrying the message |
| Status.FailureBannerCarriesMessage | manage/import_class.py:302-303 | the failure banner's text between head and tail is the message's rendering |
| Planes.Get | manage/import_class.py:201-204 | `line.get(key)` is the field's value when the key is present and `None` otherwise |
| Planes.PlaneQueryFor | manage/import_class.py:201-212 | only a present, empty tail number selects the unknown plane; otherwise the lookup is by tail number and user, plus the type exactly when it is present and non-empty |
| Planes.FlightPlaneRow | manage/import_class.py:201-212 | `get_or_create` keeps every existing row; after a lookup by tail number a row it accepts exists; it adds nothing when one existed (the `MultipleObjectsReturned` case included) and otherwise at most the row for the user, tail number and type; the unknown plane is never looked up |
| Planes.PlanePk | manage/import_class.py:201-214 | a blank tail number gives primary key 90; otherwise the plane table's answer |
| Planes.BlankTailIsUnknownPlane | manage/import_class.py:210-212 | a blank tail number gives plane 90 whatever the plane table holds |
| Planes.QuoteTag | manage/import_class.py:276-278 | a tag piece becomes its stripped text, possibly wrapped in `"`, and is left unwrapped when the stripped text has no space |
| Planes.QuotedExactlyWhenSpaced | manage/import_class.py:275-278 | a tag piece is quoted exactly when its stripped text contains a space |
| Planes.NormalizeTags | manage/import_class.py:271-282 | empty tags give the empty string; a list without commas is one normalised piece |
| Planes.NormalizeTagsCons | manage/import_class.py:271-282 | a list with a comma gives its first piece normalised, one space, then the rest normalised; an empty piece gives an empty tag, so `a,,b` gives `a  b`; with the comma-free case this fixes the text for every tag list |
| Planes.TagsRoundTrip | manage/import_class.py:271-282 | reading the normalised tags back as a space-separated list with quoted runs gives the stripped, non-empty comma-separated tags, in order |
| Planes.ParseJoinedTags | manage/import_class.py:275-282 | the round trip holds for any non-empty list of pieces without `"` |
| Planes.SplitPiecesFromInput | manage/import_class.py:275 | every piece of a split holds only characters of the input |
| Planes.UpsertPlane | manage/import_class.py:258-288 | the key's row exists afterwards; no other row changes; the row holds the new fields unless the save fails, in which case an existing row keeps its fields |
| Planes.SecondUpsertOverwrites | manage/import_class.py:258-288 | two plane lines with one key touch one row: the second's fields win and the table grows by at most one row |
| Importers.PreviewHandlers | manage/import_class.py:152-190 | each preview handler leaves the store alone and returns the preview rendering of its kind for the line |
| Importers.PreviewImportIsFilterMap | manage/import_class.py:88-190 | a preview run without unrecognised lines fills each list with the previews of exactly the lines of its kind, in file order |
| Importers.FormMessage | manage/import_class.py:218-224 | the message is `'good'` exactly when the form has no errors |
| Importers.WithPlane | manage/import_class.py:214 | the validated flight line is the classified line plus the plane's key under `plane`, with every other field unchanged |
| Importers.CommitFlight | manage/import_class.py:198-228 | the plane table is what the plane lookup's `get_or_create` leaves, whether or not the flight is accepted; the flight is saved, with its plane key, exactly when the form accepts it; the non-flight and records tables do not change; the result is the preview followed by the success banner exactly when it was saved, and otherwise by the failure banner carrying the form's errors |
| Importers.BlankTailFlightSavedWithUnknownPlane | manage/import_class.py:210-221 | an accepted flight with a blank tail number is saved with plane `90`, and the plane table is left as it was |
| Importers.CommitNonFlight | manage/import_class.py:230-244 | the event is saved exactly when the form accepts it; no other table changes; the preview is followed by the success banner exactly when it was saved, and otherwise by the failure banner carrying the form's errors |
| Importers.CommitRecords | manage/import_class.py:246-254 | the user's records text becomes the line's, other users and tables are untouched, and the result is the bare preview without a banner |
| Importers.LaterRecordsWin | manage/import_class.py:246-254 | of two records lines for one user, the later text is kept |
| Importers.SameRowExactlyForSameTailAndType | manage/import_class.py:258-263 | the plane row `handle_plane` looks up is the user's, and two plane lines reach the same row exactly when they agree on tail number and type |
| Importers.PlaneAttrsOf | manage/import_class.py:267-282 | manufacturer, model and class are written as given, the tag field is the line's tags normalised, and it reads back as the line's comma-separated tags when they hold no `"` |
| Importers.CommitPlane | manage/import_class.py:256-292 | the row for user, tail number and type exists afterwards and holds the line's fields with normalised tags unless the save raised; nothing else changes; success banner exactly when the save succeeded, otherwise the exception's text |
| Importers.DatabaseHandlers | manage/import_class.py:196-292 | the database handlers; a records or plane line lacking a field the source indexes is rendered with the bare preview and leaves the database alone |
| Importers.DatabaseRendering | manage/import_class.py:196-305 | a records line renders as its bare preview; a flight line (with its plane key) and a non-flight line as their preview followed by the success banner exactly when the form accepts them and otherwise by the failure banner carrying the form's errors; a plane line as its preview followed by the success banner or the failure banner with the save's exception, or as the bare preview when it lacks a field |
| Importers.DatabaseRendersIgnoringStore | manage/import_class.py:196-292 | whatever the database holds, each database handler renders a line as `DatabaseRendering` does |
| Importers.DatabaseImportIsFilterMap | manage/import_class.py:88-104 | a database run without unrecognised lines fills each list with the database renderings of exactly the lines of its kind, in file order |
| Importers.DatabaseStepFlights | manage/import_class.py:88-101 | only a flight line adds to the flight table, and only its own accepted flight |
| Importers.DatabaseSavesAcceptedFlights | manage/import_class.py:88-101 | a database run without unrecognised lines saves exactly the accepted flight lines, in file order, each with its plane key |
| Pipeline.DataRows | manage/import_class.py:76-88 | the data rows are never empty and no more than the rows read |
| Pipeline.DataRowsAppend | manage/import_class.py:76-88 | a header row alone yields no data rows, and each further row is yielded after the earlier ones exactly when it is not empty: the data rows are the non-empty rows after the header, in order |
| Pipeline.Lines | manage/import_class.py:74-89 | line `i` is the classification of data row `i` under the normalised header |
| Pipeline.Raised | manage/import_class.py:106-107 | a run fails with an unrecognised-line error exactly when the loop stopped, naming that line type (the source raises a bare `Exception`; the model records the type for the statement of its properties) |
| Pipeline.Import | manage/import_class.py:17-107 | a run is refused with `NoFileError` exactly when there is no file; it fails with `InvalidCSVError` exactly when sniffing fails or there is no header row, and then before any list entry or store change; any other failure names an unrecognised line type |
| Pipeline.ForcedTabRunIgnoresSniffer | manage/import_class.py:57-62 | with `force_tsv` the whole run is independent of the sniffer |
| Pipeline.CleanRunCounts | manage/import_class.py:78-107 | a readable file whose lines are all recognised runs without error, one entry per data row of each kind |
| Pipeline.FailedRunKeepsEarlierLines | manage/import_class.py:78-107 | a run that meets an unrecognised type at line `k` raises with it and keeps what the first `k` lines did |

## Left out

- The Django ORM and forms are not modelled. This covers `get_or_create`, `save`, `ImportFlightForm` and `NonFlightForm`. The forms' verdicts, the plane table's lookup answer and the exception a save raises are parameters of `Importers.Backend`, and the database is an immutable `Importers.Db` value.
- Importers.CommitFlight: the primary key bound to the flight is the backend's `resolvePlane` answer. The model's plane table carries no primary keys, so the key is not tied to the row `get_or_create` found or created.
- Planes.FlightPlaneRow: a line without a `tailnumber` field makes the source look up and create a plane with a null tail number. The model leaves the table unchanged in that case, since `PlaneKey` has no null tail number.
- In `handle_plane` the lookup key is the row's full identity, so `MultipleObjectsReturned` cannot arise in the model: one key is one row.
- Plane model defaults are not modelled: a created row is blank until the plane handler's fields are written.
- `csv.Sniffer`, `csv.reader` and `DictReader` are parameters. The file's `seek(0)` and `read(10000)` in `do_pre` are modelled by `Dialects.Sample` on the file's text. A malformed-quote `csv.Error` raised mid-file is not modelled.
- A file without a header row is modelled as an empty row list from the reader. A dictionary row is the classifier's input as titles plus values.
- The `TypeError` from `csv.reader`, re-raised as `RuntimeError`, is left out. A modelled dialect is always a complete value.
- `PrepareLine`, `COLUMN_NAMES`, `PREVIEW_FIELDS` and `FIELD_ABBV` are not part of this model. They are parameters.
- The HTML of the preview handlers and of `make_headers` is left out. The renderings are parameters of `Importers.Previews`, and the header rows are presentation only.
- Importers.DatabaseHandlers: a records or plane line that lacks a field the source indexes with `line[...]` raises `KeyError` in the source. The model renders it and leaves the database alone. A missing field is not an error value here.
- Importers.DatabaseRendersIgnoringStore: the form verdicts, the plane key and the plane save's exception are functions of the line alone (the `Backend` fields take no database). In the source, `get_or_create`'s key (a fresh row id, or the first of several rows), form validation and `save()` may depend on stored rows. This lemma, and the per-entry renderings of `Importers.DatabaseImportIsFilterMap`, hold because of that choice.
- Importers.Previews: the preview renderings are total functions. The source's preview handlers index `line[...]` and raise `KeyError` for a missing field, which ends the run. In `DatabaseImport` that happens after the flight or event was saved, so the line is stored but gets no list entry. Neither case is modelled.
- Importers.WithPlane: the source stores the integer `plane.pk` under `plane`, with no conversion. A classified line here maps names to strings, so the model stores the key's decimal text (`PyStr.DecimalString`).
- Importers.CommitRecords and Importers.CommitPlane require the fields they index. The source raises `KeyError` without them.
- Planes.NormalizeTags: the tag normalisation is fixed by its contract together with `Planes.NormalizeTagsCons`. Reading the tags back (`Planes.TagsRoundTrip`) is proved only for tags without `"`. With a `"` inside a tag, the source's quoting is not reversible.
- `Dialects.Dialect` holds six attributes. `escapechar` and `strict` are not modelled: they only steer the `csv` parser, which is a parameter.
- Python 2 `str` is modelled as `seq<char>` of byte values. Only ASCII `a`-`z` are upper-cased and only the six ASCII whitespace characters are stripped. There is no locale or Unicode handling.
- `maps/states.py` is not part of this model: map plotting, float colour scaling and ORM queries.
- `backup/views.py` is not part of this model: HTTP views, zip output and email.
- `plane/sitemaps.py` is not part of this model: a sitemap wrapper over ORM queries.
- `flightloggin/settings_app.py` is not part of this model: static configuration.
- `airport/queryset_manager.py` is not part of this model: ORM queryset declarations.

=== FILE: dialects.dfy ===
/**
  Delimiter policy of the importer (`BaseImport.do_pre`, `get_dialect` and
  the first half of `get_dict_reader`). Python's `csv.Sniffer` is a
  parameter: a function from the sampled text to a dialect, or to nothing
  when sniffing raises.
 */
module Dialects {
  import opened Wrappers
  import opened ImportErrors

  /** The quoting policies of Python's `csv` module. */
  datatype Quoting = QuoteMinimal | QuoteAll | QuoteNonNumeric | QuoteNone

  /**
    Six attributes of a `csv.Dialect`. The reader also uses `escapechar` and
    `strict`, which are not modelled: they only steer the `csv` parser, which
    is a parameter here.
   */
  datatype Dialect = Dialect(
    delimiter: char,
    quoteChar: char,
    doubleQuote: bool,
    skipInitialSpace: bool,
    lineTerminator: string,
    quoting: Quoting)

  /** `csv.excel_tab`: the Excel dialect with a tab delimiter. */
  const ExcelTab: Dialect := Dialect('\t', '"', true, false, "\r\n", QuoteMinimal)

  /** The delimiters the importer trusts. */
  predicate IsTrusted(delimiter: char) {
    delimiter == ',' || delimiter == '\t'
  }

  /** How many characters `do_pre` reads for sniffing. */
  const SampleSize: nat := 10000

  /** `do_pre`: the first `SampleSize` characters of the file, or all of it when shorter. */
  function Sample(contents: string): (pre: string)
    ensures |pre| == if |contents| < SampleSize then |contents| else SampleSize
    ensures pre == contents[..|pre|]
  {
    if |contents| < SampleSize then contents else contents[..SampleSize]
  }

  /**
    The dialect `get_dict_reader` reads the file with. With `forceTsv` the
    sniffer is not consulted and the dialect is `ExcelTab`. Otherwise the
    sniffer runs on the sample; its failure raises `InvalidCSVError`, and a
    sniffed dialect keeps its attributes but has any delimiter other than a
    comma or a tab replaced by a tab.
   */
  function ChooseDialect(forceTsv: bool, sniff: string -> Option<Dialect>, contents: string): (r: Result<Dialect, ImportError>)
    ensures r.Ok? ==> IsTrusted(r.value.delimiter)
    ensures r.Err? <==> !forceTsv && sniff(Sample(contents)).None?
    ensures r.Err? ==> r.error == InvalidCsvError
    ensures forceTsv ==> r == Ok(ExcelTab)
    ensures !forceTsv && sniff(Sample(contents)).Some? ==>
      var d := sniff(Sample(contents)).value;
      && r.value.(delimiter := d.delimiter) == d
      && (IsTrusted(d.delimiter) ==> r.value == d)
      && (!IsTrusted(d.delimiter) ==> r.value.delimiter == '\t')
  {
    if !forceTsv then
      match sniff(Sample(contents))
      case None => Err(InvalidCsvError)
      case Some(d) => Ok(if d.delimiter in {',', '\t'} then d else d.(delimiter := '\t'))
    else
      Ok(ExcelTab)
  }

  /** With `forceTsv` the sniffer is irrelevant: any two sniffers give the same dialect. */
  lemma ForcedTabIgnoresSniffer(sniff1: string -> Option<Dialect>, sniff2: string -> Option<Dialect>, contents: string)
    ensures ChooseDialect(true, sniff1, contents) == ChooseDialect(true, sniff2, contents)
    ensures ChooseDialect(true, sniff1, contents).value.delimiter == '\t'
  {
  }

  /** The sniffer sees only the sample: files that agree on their first `SampleSize` characters get the same dialect. */
  lemma DialectDependsOnlyOnSample(forceTsv: bool, sniff: string -> Option<Dialect>, a: string, b: string)
    requires |a| >= SampleSize && |b| >= SampleSize
    requires a[..SampleSize] == b[..SampleSize]
    ensures ChooseDialect(forceTsv, sniff, a) == ChooseDialect(forceTsv, sniff, b)
  {
  }
}

=== FILE: dispatch.dfy ===
/**
  The dispatch loop of `BaseImport.action`: each classified line is handed
  to the handler for its type and the handler's rendering is appended to
  that type's output list. Handlers are abstract: each takes the store it
  may persist into (nothing for the preview import, the database for the
  Database import) and returns the updated store with its rendering.
 */
module Dispatch {
  import opened Wrappers
  import opened Seqs

  /** The line types `action` tells apart. */
  datatype Kind = FlightLine | NonFlightLine | RecordsLine | PlaneLine | LocationLine | Unrecognised

  /** The comparisons of the `if`/`elif` chain on the classifier's line type. */
  function KindOf(lineType: string): (k: Kind)
    ensures k == FlightLine <==> lineType == "flight"
    ensures k == NonFlightLine <==> lineType == "nonflight" || lineType == "event"
    ensures k == RecordsLine <==> lineType == "records"
    ensures k == PlaneLine <==> lineType == "plane"
    ensures k == LocationLine <==> lineType == "location"
    ensures k == Unrecognised <==>
      lineType != "flight" && lineType != "nonflight" && lineType != "event" &&
      lineType != "records" && lineType != "plane" && lineType != "location"
  {
    if lineType == "flight" then FlightLine
    else if lineType == "nonflight" || lineType == "event" then NonFlightLine
    else if lineType == "records" then RecordsLine
    else if lineType == "plane" then PlaneLine
    else if lineType == "location" then LocationLine
    else Unrecognised
  }

  /** The four output lists: `flight_out`, `non_out`, `records_out`, `plane_out`. */
  datatype Bucket = FlightOut | NonOut | RecordsOut | PlaneOut

  /** The output list a kind of line feeds, if any. */
  function BucketOf(k: Kind): (b: Option<Bucket>)
    ensures b == Some(FlightOut) <==> k == FlightLine
    ensures b == Some(NonOut) <==> k == NonFlightLine
    ensures b == Some(RecordsOut) <==> k == RecordsLine
    ensures b == Some(PlaneOut) <==> k == PlaneLine
    ensures b.None? <==> k == LocationLine || k == Unrecognised
  {
    match k
    case FlightLine => Some(FlightOut)
    case NonFlightLine => Some(NonOut)
    case RecordsLine => Some(RecordsOut)
    case PlaneLine => Some(PlaneOut)
    case _ => None
  }

  datatype Accumulators<R> = Accumulators(flightOut: seq<R>, nonOut: seq<R>, recordsOut: seq<R>, planeOut: seq<R>)
  {
    function Get(b: Bucket): seq<R> {
      match b
      case FlightOut => flightOut
      case NonOut => nonOut
      case RecordsOut => recordsOut
      case PlaneOut => planeOut
    }

    function Append(b: Bucket, x: R): Accumulators<R>
    {
      match b
      case FlightOut => this.(flightOut := flightOut + [x])
      case NonOut => this.(nonOut := nonOut + [x])
      case RecordsOut => this.(recordsOut := recordsOut + [x])
      case PlaneOut => this.(planeOut := planeOut + [x])
    }
  }

  /** The four lists as `BaseImport.__init__` creates them. */
  function NoOutput<R>(): (a: Accumulators<R>)
    ensures forall b :: a.Get(b) == []
  {
    Accumulators([], [], [], [])
  }

  /** `handle_flight`, `handle_nonflight`, `handle_records`, `handle_plane`. */
  datatype Handlers<!S, !L, !R> = Handlers(
    flight: (S, L) -> (S, R),
    nonflight: (S, L) -> (S, R),
    records: (S, L) -> (S, R),
    plane: (S, L) -> (S, R))
  {
    function For(b: Bucket): (S, L) -> (S, R) {
      match b
      case FlightOut => flight
      case NonOut => nonflight
      case RecordsOut => records
      case PlaneOut => plane
    }
  }

  /** A classified line: the classifier's line type and its cleaned fields. */
  type Classified<L> = (string, L)

  /** Where the loop stopped: the store, the four lists, and the unrecognised line type if it raised. */
  datatype Progress<S, R> = Progress(store: S, out: Accumulators<R>, failure: Option<string>)

  /**
    One pass of the loop body for a recognised line: a flight, nonflight,
    event, records or plane line appends exactly one rendering, its
    handler's, to its own list and leaves the other three as they were; a
    location line changes nothing.
   */
  function Step<S, L, R>(h: Handlers<S, L, R>, store: S, out: Accumulators<R>, k: Kind, line: L): (p: (S, Accumulators<R>))
    requires k != Unrecognised
    ensures BucketOf(k).None? ==> p == (store, out)
    ensures BucketOf(k).Some? ==>
      var b := BucketOf(k).value;
      && p.0 == h.For(b)(store, line).0
      && p.1.Get(b) == out.Get(b) + [h.For(b)(store, line).1]
      && forall c {:trigger p.1.Get(c)} :: c != b ==> p.1.Get(c) == out.Get(c)
  {
    match BucketOf(k)
    case None => (store, out)
    case Some(b) =>
      var (store', rendered) := h.For(b)(store, line);
      (store', out.Append(b, rendered))
  }

  predicate Recognised<L>(line: Classified<L>) {
    KindOf(line.0) != Unrecognised
  }

  predicate AllRecognised<L>(lines: seq<Classified<L>>) {
    forall i :: 0 <= i < |lines| ==> Recognised(lines[i])
  }

  /**
    The loop of `action` over the classified lines, in file order. It stops
    at the first unrecognised line type, raising; the lists keep what the
    earlier lines appended. The loop fails exactly when some line is
    unrecognised, and then reports that line's type.
   */
  function Action<S, L, R>(h: Handlers<S, L, R>, store: S, out: Accumulators<R>, lines: seq<Classified<L>>): (p: Progress<S, R>)
    ensures p.failure.None? <==> AllRecognised(lines)
    ensures p.failure.Some? ==> KindOf(p.failure.value) == Unrecognised
    decreases |lines|
  {
    if lines == [] then Progress(store, out, None)
    else
      var k := KindOf(lines[0].0);
      if k == Unrecognised then Progress(store, out, Some(lines[0].0))
      else
        var (store', out') := Step(h, store, out, k, lines[0].1);
        var p := Action(h, store', out', lines[1..]);
        assert AllRecognised(lines) <==> AllRecognised(lines[1..]) by {
          if AllRecognised(lines[1..]) {
            forall i | 0 <= i < |lines| ensures Recognised(lines[i]) {
              if i > 0 { assert lines[i] == lines[1..][i - 1]; }
            }
          }
        }
        p
  }

  /**
    The lists only grow: whatever the lines are, and whether or not the loop
    raises, what a list held before the loop is a prefix of what it holds
    after, so entries appended for earlier lines remain.
   */
  lemma {:induction false} ActionKeepsEarlierEntries<S, L, R>(h: Handlers<S, L, R>, store: S, out: Accumulators<R>, lines: seq<Classified<L>>, b: Bucket)
    ensures out.Get(b) <= Action(h, store, out, lines).out.Get(b)
    decreases |lines|
  {
    if lines != [] && Recognised(lines[0]) {
      var step := Step(h, store, out, KindOf(lines[0].0), lines[0].1);
      ActionKeepsEarlierEntries(h, step.0, step.1, lines[1..], b);
    }
  }

  /** The lines of `lines` that feed bucket `b`, in file order. */
  function Select<L>(lines: seq<Classified<L>>, b: Bucket): seq<L>
    decreases |lines|
  {
    if lines == [] then []
    else (if BucketOf(KindOf(lines[0].0)) == Some(b) then [lines[0].1] else []) + Select(lines[1..], b)
  }

  /** The number of location lines in `lines`. */
  function Locations<L>(lines: seq<Classified<L>>): nat
    decreases |lines|
  {
    if lines == [] then 0
    else (if KindOf(lines[0].0) == LocationLine then 1 else 0) + Locations(lines[1..])
  }

  /** Handlers that render without touching the store, as the preview import's do. */
  function Stateless<S, L, R>(render: (Bucket, L) -> R): Handlers<S, L, R>
  {
    Handlers(
      (s, l) => (s, render(FlightOut, l)),
      (s, l) => (s, render(NonOut, l)),
      (s, l) => (s, render(RecordsOut, l)),
      (s, l) => (s, render(PlaneOut, l)))
  }

  /** Every handler of `h` leaves the store alone and renders as `render` does. */
  ghost predicate RendersAs<S(!new), L(!new), R>(h: Handlers<S, L, R>, render: (Bucket, L) -> R) {
    forall b, s, l :: h.For(b)(s, l) == (s, render(b, l))
  }

  lemma StatelessRendersAs<S(!new), L(!new), R>(render: (Bucket, L) -> R)
    ensures RendersAs(Stateless<S, L, R>(render), render)
  {
  }

  /** The reference content of list `b`: the lines of its kind, rendered, in file order. */
  function Rendered<L, R>(render: (Bucket, L) -> R, lines: seq<Classified<L>>, b: Bucket): seq<R>
    decreases |lines|
  {
    if lines == [] then [] else RenderedOne(render, lines[0], b) + Rendered(render, lines[1..], b)
  }

  /** What one line contributes to list `b`: its rendering when it is of `b`'s kind, nothing otherwise. */
  function RenderedOne<L, R>(render: (Bucket, L) -> R, line: Classified<L>, b: Bucket): seq<R> {
    if BucketOf(KindOf(line.0)) == Some(b) then [render(b, line.1)] else []
  }

  /** The reference content is the rendering of `Select`, entry by entry. */
  lemma {:induction false} RenderedIsSelectRendered<L, R>(render: (Bucket, L) -> R, lines: seq<Classified<L>>, b: Bucket)
    ensures |Rendered(render, lines, b)| == |Select(lines, b)|
    ensures forall i :: 0 <= i < |Select(lines, b)| ==> Rendered(render, lines, b)[i] == render(b, Select(lines, b)[i])
    decreases |lines|
  {
    if lines != [] {
      RenderedIsSelectRendered(render, lines[1..], b);
    }
  }

  lemma AllRecognisedTail<L>(lines: seq<Classified<L>>)
    requires lines != [] && AllRecognised(lines)
    ensures Recognised(lines[0]) && AllRecognised(lines[1..])
  {
    forall i | 0 <= i < |lines| - 1 ensures Recognised(lines[1..][i]) {
      assert lines[1..][i] == lines[i + 1];
    }
  }

  /** A recognised first line is one step followed by the loop over the rest. */
  lemma ActionUnfold<S, L, R>(h: Handlers<S, L, R>, store: S, out: Accumulators<R>, lines: seq<Classified<L>>)
    requires lines != [] && Recognised(lines[0])
    ensures var step := Step(h, store, out, KindOf(lines[0].0), lines[0].1);
      Action(h, store, out, lines) == Action(h, step.0, step.1, lines[1..])
  {
  }

  /** One loop step with store-independent handlers appends the line's rendering to its own list only. */
  lemma StatelessStep<S(!new), L(!new), R>(h: Handlers<S, L, R>, render: (Bucket, L) -> R, store: S, out: Accumulators<R>, line: Classified<L>, b: Bucket)
    requires RendersAs(h, render)
    requires Recognised(line)
    ensures var p := Step(h, store, out, KindOf(line.0), line.1);
      && p.0 == store
      && p.1.Get(b) == out.Get(b) + RenderedOne(render, line, b)
  {
    var k := KindOf(line.0);
    if BucketOf(k).Some? {
      assert h.For(BucketOf(k).value)(store, line.1) == (store, render(BucketOf(k).value, line.1));
    }
  }

  /** Every handler of `h` renders as `render` does, whatever the store, which it may change. */
  ghost predicate RendersIgnoringStore<S(!new), L(!new), R>(h: Handlers<S, L, R>, render: (Bucket, L) -> R) {
    forall b, s, l :: h.For(b)(s, l).1 == render(b, l)
  }

  /** One loop step with store-independent renderings appends the line's rendering to its own list only. */
  lemma RenderStep<S(!new), L(!new), R>(h: Handlers<S, L, R>, render: (Bucket, L) -> R, store: S, out: Accumulators<R>, line: Classified<L>, b: Bucket)
    requires RendersIgnoringStore(h, render)
    requires Recognised(line)
    ensures Step(h, store, out, KindOf(line.0), line.1).1.Get(b) == out.Get(b) + RenderedOne(render, line, b)
  {
    var k := KindOf(line.0);
    if BucketOf(k).Some? {
      assert h.For(BucketOf(k).value)(store, line.1).1 == render(BucketOf(k).value, line.1);
    }
  }

  /**
    With handlers whose renderings do not depend on the store, whatever they
    persist, and no unrecognised line, each list receives exactly the
    renderings of the lines of its kind, in file order.
   */
  lemma {:induction false} ActionIsFilterMap<S(!new), L(!new), R>(
    h: Handlers<S, L, R>, render: (Bucket, L) -> R, store: S, out: Accumulators<R>, lines: seq<Classified<L>>, b: Bucket)
    requires RendersIgnoringStore(h, render)
    requires AllRecognised(lines)
    ensures Action(h, store, out, lines).out.Get(b) == out.Get(b) + Rendered(render, lines, b)
    decreases |lines|
  {
    if lines != [] {
      AllRecognisedTail(lines);
      var step := Step(h, store, out, KindOf(lines[0].0), lines[0].1);
      ActionIsFilterMap(h, render, step.0, step.1, lines[1..], b);
      RenderStep(h, render, store, out, lines[0], b);
      RenderMapStep(h, store, out, lines, b, RenderedOne(render, lines[0], b), Rendered(render, lines[1..], b));
    }
  }

  /** The inductive step of `ActionIsFilterMap`: a step that adds `head` to list `b`, then a loop that adds `rest`. */
  lemma RenderMapStep<S, L, R>(
    h: Handlers<S, L, R>, store: S, out: Accumulators<R>, lines: seq<Classified<L>>, b: Bucket, head: seq<R>, rest: seq<R>)
    requires lines != [] && Recognised(lines[0])
    requires var step := Step(h, store, out, KindOf(lines[0].0), lines[0].1);
      && step.1.Get(b) == out.Get(b) + head
      && Action(h, step.0, step.1, lines[1..]).out.Get(b) == step.1.Get(b) + rest
    ensures Action(h, store, out, lines).out.Get(b) == out.Get(b) + (head + rest)
  {
    ActionUnfold(h, store, out, lines);
  }

  /**
    With store-independent handlers and no unrecognised line, the loop's
    lists are exactly the per-kind filter-and-render of the input: every
    recognised non-location line yields one entry, in its own list, in file
    order, and the store is untouched.
   */
  lemma {:induction false} StatelessActionIsFilterMap<S(!new), L(!new), R>(
    h: Handlers<S, L, R>, render: (Bucket, L) -> R, store: S, out: Accumulators<R>, lines: seq<Classified<L>>, b: Bucket)
    requires RendersAs(h, render)
    requires AllRecognised(lines)
    ensures Action(h, store, out, lines).store == store
    ensures Action(h, store, out, lines).out.Get(b) == out.Get(b) + Rendered(render, lines, b)
    decreases |lines|
  {
    if lines != [] {
      AllRecognisedTail(lines);
      var step := Step(h, store, out, KindOf(lines[0].0), lines[0].1);
      StatelessActionIsFilterMap(h, render, store, step.1, lines[1..], b);
      StatelessStep(h, render, store, out, lines[0], b);
      FilterMapStep(h, store, out, lines, b, RenderedOne(render, lines[0], b), Rendered(render, lines[1..], b));
    }
  }

  /** The inductive step of `StatelessActionIsFilterMap`: a step that adds `head` to list `b`, then a loop that adds `rest`. */
  lemma FilterMapStep<S, L, R>(
    h: Handlers<S, L, R>, store: S, out: Accumulators<R>, lines: seq<Classified<L>>, b: Bucket, head: seq<R>, rest: seq<R>)
    requires lines != [] && Recognised(lines[0])
    requires var step := Step(h, store, out, KindOf(lines[0].0), lines[0].1);
      && step.0 == store
      && step.1.Get(b) == out.Get(b) + head
      && Action(h, store, step.1, lines[1..]).store == store
      && Action(h, store, step.1, lines[1..]).out.Get(b) == step.1.Get(b) + rest
    ensures Action(h, store, out, lines).store == store
    ensures Action(h, store, out, lines).out.Get(b) == out.Get(b) + (head + rest)
  {
    ActionUnfold(h, store, out, lines);
  }

  /**
    With any handlers, when every line is recognised each list grows by the
    number of lines of its kind, and the four lists together grow by the
    number of lines that are not location lines.
   */
  lemma {:induction false} ActionCounts<S, L, R>(h: Handlers<S, L, R>, store: S, out: Accumulators<R>, lines: seq<Classified<L>>)
    requires AllRecognised(lines)
    ensures var p := Action(h, store, out, lines);
      && (forall b :: |p.out.Get(b)| == |out.Get(b)| + |Select(lines, b)|)
      && |Select(lines, FlightOut)| + |Select(lines, NonOut)| + |Select(lines, RecordsOut)| + |Select(lines, PlaneOut)|
         == |lines| - Locations(lines)
  {
    forall b ensures |Action(h, store, out, lines).out.Get(b)| == |out.Get(b)| + |Select(lines, b)| {
      ActionCountsIn(h, store, out, lines, b);
    }
    BucketsPartitionLines(lines);
  }

  /** List `b` grows by one entry per line of its kind. */
  lemma {:induction false} ActionCountsIn<S, L, R>(h: Handlers<S, L, R>, store: S, out: Accumulators<R>, lines: seq<Classified<L>>, b: Bucket)
    requires AllRecognised(lines)
    ensures |Action(h, store, out, lines).out.Get(b)| == |out.Get(b)| + |Select(lines, b)|
    decreases |lines|
  {
    if lines != [] {
      AllRecognisedTail(lines);
      var step := Step(h, store, out, KindOf(lines[0].0), lines[0].1);
      ActionCountsIn(h, step.0, step.1, lines[1..], b);
      CountStep(h, store, out, lines, b);
    }
  }

  /** The inductive step of `ActionCountsIn`. */
  lemma CountStep<S, L, R>(h: Handlers<S, L, R>, store: S, out: Accumulators<R>, lines: seq<Classified<L>>, b: Bucket)
    requires lines != [] && Recognised(lines[0])
    requires var step := Step(h, store, out, KindOf(lines[0].0), lines[0].1);
      |Action(h, step.0, step.1, lines[1..]).out.Get(b)| == |step.1.Get(b)| + |Select(lines[1..], b)|
    ensures |Action(h, store, out, lines).out.Get(b)| == |out.Get(b)| + |Select(lines, b)|
  {
    ActionUnfold(h, store, out, lines);
  }

  /** Every recognised line is a location line or feeds exactly one list. */
  lemma {:induction false} BucketsPartitionLines<L>(lines: seq<Classified<L>>)
    requires AllRecognised(lines)
    ensures |Select(lines, FlightOut)| + |Select(lines, NonOut)| + |Select(lines, RecordsOut)| + |Select(lines, PlaneOut)|
         == |lines| - Locations(lines)
    decreases |lines|
  {
    if lines != [] {
      AllRecognisedTail(lines);
      BucketsPartitionLines(lines[1..]);
    }
  }

  /**
    When line `k` is the first unrecognised one, the loop ends in the state
    the first `k` lines leave, with that line's type as the failure: the
    entries and the persisted effects of earlier lines remain.
   */
  lemma {:induction false} ActionStopsAtFirstUnrecognised<S, L, R>(
    h: Handlers<S, L, R>, store: S, out: Accumulators<R>, lines: seq<Classified<L>>, k: nat)
    requires k < |lines| && !Recognised(lines[k])
    requires AllRecognised(lines[..k])
    ensures var p := Action(h, store, out, lines[..k]);
      Action(h, store, out, lines) == p.(failure := Some(lines[k].0))
    decreases k
  {
    if k > 0 {
      AllRecognisedTail(lines[..k]);
      var (s', out') := Step(h, store, out, KindOf(lines[0].0), lines[0].1);
      assert lines[1..][..k - 1] == lines[..k][1..];
      ActionStopsAtFirstUnrecognised(h, s', out', lines[1..], k - 1);
    }
  }

  /** The lines that are not location lines, in file order. */
  function DropLocations<L>(lines: seq<Classified<L>>): (r: seq<Classified<L>>)
    ensures |r| == |lines| - Locations(lines)
    decreases |lines|
  {
    if lines == [] then []
    else (if KindOf(lines[0].0) == LocationLine then [] else [lines[0]]) + DropLocations(lines[1..])
  }

  /** Location lines are dropped silently: removing them from the input changes nothing, not even the store. */
  lemma {:induction false} LocationsChangeNothing<S, L, R>(h: Handlers<S, L, R>, store: S, out: Accumulators<R>, lines: seq<Classified<L>>)
    ensures Action(h, store, out, DropLocations(lines)) == Action(h, store, out, lines)
    decreases |lines|
  {
    if lines != [] {
      var k := KindOf(lines[0].0);
      if k == LocationLine {
        LocationsChangeNothing(h, store, out, lines[1..]);
        assert DropLocations(lines) == DropLocations(lines[1..]);
      } else if k != Unrecognised {
        var (s', out') := Step(h, store, out, k, lines[0].1);
        LocationsChangeNothing(h, s', out', lines[1..]);
        var d := DropLocations(lines);
        assert d[0] == lines[0] && d[1..] == DropLocations(lines[1..]);
      } else {
        var d := DropLocations(lines);
        assert d[0] == lines[0];
      }
    }
  }

  /**
    Every step adds to the projection `proj` of the store exactly what
    `contrib` says the line contributes, whatever the store and lists were.
   */
  ghost predicate StepAppends<S(!new), L(!new), R(!new), X>(h: Handlers<S, L, R>, proj: S -> seq<X>, contrib: Classified<L> -> seq<X>) {
    forall s: S, out: Accumulators<R>, line: Classified<L> {:trigger Step(h, s, out, KindOf(line.0), line.1)} ::
      Recognised(line) ==> proj(Step(h, s, out, KindOf(line.0), line.1).0) == proj(s) + contrib(line)
  }

  /** What the lines contribute, in file order. */
  function Gathered<L, X>(contrib: Classified<L> -> seq<X>, lines: seq<Classified<L>>): seq<X>
    decreases |lines|
  {
    if lines == [] then [] else contrib(lines[0]) + Gathered(contrib, lines[1..])
  }

  /**
    When every step adds its line's contribution to a projection of the
    store, a loop without unrecognised lines adds the contributions of all
    lines, in file order.
   */
  lemma {:induction false} ActionGathers<S(!new), L(!new), R(!new), X>(
    h: Handlers<S, L, R>, proj: S -> seq<X>, contrib: Classified<L> -> seq<X>, store: S, out: Accumulators<R>, lines: seq<Classified<L>>)
    requires StepAppends(h, proj, contrib)
    requires AllRecognised(lines)
    ensures proj(Action(h, store, out, lines).store) == proj(store) + Gathered(contrib, lines)
    decreases |lines|
  {
    if lines != [] {
      AllRecognisedTail(lines);
      var step := Step(h, store, out, KindOf(lines[0].0), lines[0].1);
      assert proj(step.0) == proj(store) + contrib(lines[0]);
      ActionGathers(h, proj, contrib, step.0, step.1, lines[1..]);
      GatherStep(h, proj, contrib, store, out, lines);
    }
  }

  /** The inductive step of `ActionGathers`. */
  lemma GatherStep<S, L, R, X>(
    h: Handlers<S, L, R>, proj: S -> seq<X>, contrib: Classified<L> -> seq<X>, store: S, out: Accumulators<R>, lines: seq<Classified<L>>)
    requires lines != [] && Recognised(lines[0])
    requires var step := Step(h, store, out, KindOf(lines[0].0), lines[0].1);
      && proj(step.0) == proj(store) + contrib(lines[0])
      && proj(Action(h, step.0, step.1, lines[1..]).store) == proj(step.0) + Gathered(contrib, lines[1..])
    ensures proj(Action(h, store, out, lines).store) == proj(store) + Gathered(contrib, lines)
  {
    ActionUnfold(h, store, out, lines);
    assert Gathered(contrib, lines) == contrib(lines[0]) + Gathered(contrib, lines[1..]);
  }
}

=== FILE: errors.dfy ===
/** The exceptions the import raises before, or instead of, finishing its loop. */
module ImportErrors {

  datatype ImportError =
    /** `BaseImport.NoFileError`: the import was constructed without a file. */
    | NoFileError
    /** `BaseImport.InvalidCSVError`: the dialect could not be sniffed or the header row could not be read. */
    | InvalidCsvError
    /** The bare `Exception` raised for a line whose classified type is not one the loop handles. */
    | UnrecognisedLine(lineType: string)
}

=== FILE: headers.dfy ===
/**
  Header normalisation (`BaseImport.swap_out_flight_titles`): every column
  title of the uploaded file is cleaned as a string and then looked up in the
  table of legacy column names. The table (`COLUMN_NAMES`, defined outside
  the modelled file) is a parameter.
 */
module Headers {
  import opened PyStr
  import opened Seqs

  /** The alphabet of a cleaned title: no lower-case letter, no `"`, no `.`, no CR LF pair. */
  predicate IsCleanForm(s: string) {
    NoLower(s) && '"' !in s && '.' !in s && NoCrlf(s)
  }

  /**
    The per-title cleaning, in the order the source applies it: upper-case,
    strip, drop every `"`, drop every `.`, turn each CR LF into one space.
    The result is in the clean alphabet and never longer than the title.
   */
  function Clean(title: string): (c: string)
    ensures IsCleanForm(c)
    ensures |c| <= |title|
  {
    var u := Upper(title);
    var s := Strip(u);
    var q := Remove(s, '"');
    var d := Remove(q, '.');
    assert NoLower(d) by {
      forall i | 0 <= i < |d| ensures !IsLower(d[i]) {
        assert d[i] in q && d[i] in s;
      }
    }
    var r := ReplaceCrlf(d);
    ReplaceCrlfRemovesPairs(d);
    ReplaceCrlfAddsOnlySpaces(d);
    assert NoLower(r) by {
      forall i | 0 <= i < |r| ensures !IsLower(r[i]) {
        assert r[i] in d || r[i] == ' ';
      }
    }
    r
  }

  /**
    One title: the table's canonical name when the cleaned title is a key of
    the table, the cleaned title itself otherwise.
   */
  function NormalizeTitle(table: map<string, string>, title: string): (r: string)
    ensures Clean(title) in table ==> r == table[Clean(title)]
    ensures Clean(title) !in table ==> r == Clean(title) && IsCleanForm(r)
  {
    var c := Clean(title);
    if c in table then table[c] else c
  }

  /**
    `swap_out_flight_titles`: the list built by appending the normalised form
    of each title in turn. It has one entry per title, and entry `i` is the
    normalised form of title `i` alone.
   */
  function SwapOutTitles(table: map<string, string>, original: seq<string>): (r: seq<string>)
    ensures |r| == |original|
    ensures forall i :: 0 <= i < |original| ==> r[i] == NormalizeTitle(table, original[i])
  {
    MapSeq((title: string) => NormalizeTitle(table, title), original)
  }

  /** Normalising a header row piecewise is normalising it whole: no title influences another. */
  lemma SwapOutTitlesConcat(table: map<string, string>, a: seq<string>, b: seq<string>)
    ensures SwapOutTitles(table, a + b) == SwapOutTitles(table, a) + SwapOutTitles(table, b)
  {
    MapSeqAppend((title: string) => NormalizeTitle(table, title), a, b);
  }

  /**
    When every canonical name of the table is itself in the clean alphabet,
    every normalised title is: no lower-case letter, no `"`, no `.`, no CR LF.
   */
  lemma NormalizedTitlesAreClean(table: map<string, string>, original: seq<string>)
    requires forall k :: k in table ==> IsCleanForm(table[k])
    ensures forall i :: 0 <= i < |original| ==> IsCleanForm(SwapOutTitles(table, original)[i])
  {
  }

  /**
    A title without `"` and `.` cleans to a stripped string: removing nothing
    cannot expose whitespace, and a CR LF can only have stood at an end that
    strip had already removed.
   */
  lemma CleanStrippedWithoutMarks(title: string)
    requires '"' !in title && '.' !in title
    ensures IsStripped(Clean(title))
  {
    var s := Strip(Upper(title));
    StrippedUpperKeepsNoMarks(title);
    assert Remove(Remove(s, '"'), '.') == s;
    ReplaceCrlfKeepsStripped(s);
  }

  /** Upper-casing and stripping add no `"` and no `.`. */
  lemma StrippedUpperKeepsNoMarks(title: string)
    requires '"' !in title && '.' !in title
    ensures '"' !in Strip(Upper(title)) && '.' !in Strip(Upper(title))
  {
    var u := Upper(title);
    assert '"' !in u && '.' !in u by {
      forall i | 0 <= i < |u| ensures u[i] != '"' && u[i] != '.' {
        assert title[i] != '"' && title[i] != '.';
      }
    }
    var s := Strip(u);
    StripRemovesOnlySpace(u);
    forall i | 0 <= i < |s| ensures s[i] != '"' && s[i] != '.' {
      assert s[i] == u[LeadingSpaces(u) + i];
    }
  }

  /** Cleaning a title without `"` and `.` a second time changes nothing. */
  lemma {:induction false} CleanIdempotentWithoutMarks(title: string)
    requires '"' !in title && '.' !in title
    ensures Clean(Clean(title)) == Clean(title)
  {
    var c := Clean(title);
    CleanStrippedWithoutMarks(title);
    UpperKeepsUpper(c);
    StripRemovesOnlySpace(c);
    ReplaceCrlfIdentity(c);
  }

  /**
    The source strips before it drops `"` and `.`, so whitespace that sat
    next to a dropped mark survives: `A .` cleans to `A ` with a trailing
    space, and cleaning that again gives `A`.
   */
  lemma CleanKeepsSpaceBeforePeriod()
    ensures Clean("a .") == "A "
    ensures !IsStripped(Clean("a ."))
    ensures Clean(Clean("a .")) != Clean("a .")
  {
    CleanOfSpacedPeriod();
    CleanOfTrailingSpace();
  }

  lemma CleanOfSpacedPeriod()
    ensures Clean("a .") == "A "
  {
    calc {
      Clean("a .");
      { CleanSteps("a ."); }
      ReplaceCrlf(Remove(Remove(Strip(Upper("a .")), '"'), '.'));
      { UpperOfSpacedPeriod(); StripOfSpacedPeriod(); }
      ReplaceCrlf(Remove(Remove("A .", '"'), '.'));
      { RemoveOfSpacedPeriod(); }
      ReplaceCrlf("A ");
      { assert NoCrlf("A "); ReplaceCrlfIdentity("A "); }
      "A ";
    }
  }

  /** The cleaning steps in the order the source applies them. */
  lemma CleanSteps(title: string)
    ensures Clean(title) == ReplaceCrlf(Remove(Remove(Strip(Upper(title)), '"'), '.'))
  {
  }

  lemma StripOfSpacedPeriod()
    ensures Strip("A .") == "A ."
  {
    StripRemovesOnlySpace("A .");
  }

  lemma UpperOfSpacedPeriod()
    ensures Upper("a .") == "A ."
  {
    var u := Upper("a .");
    assert u[0] == 'A' && u[1] == ' ' && u[2] == '.';
  }

  lemma RemoveOfSpacedPeriod()
    ensures Remove("A .", '"') == "A ."
    ensures Remove("A .", '.') == "A "
  {
    assert Remove(".", '.') == [];
    assert Remove(" .", '.') == " ";
  }

  lemma CleanOfTrailingSpace()
    ensures Clean("A ") == "A"
  {
    UpperKeepsUpper("A ");
    assert TrailingSpaces("A ") == 1;
    assert Strip("A ") == "A";
    assert NoCrlf("A");
    ReplaceCrlfIdentity("A");
  }

  /**
    A header row that is already canonical is left unchanged: each title is
    its own cleaned form and, when the table knows it, maps to itself.
   */
  lemma CanonicalHeadersUnchanged(table: map<string, string>, titles: seq<string>)
    requires forall i :: 0 <= i < |titles| ==> IsCleanForm(titles[i]) && IsStripped(titles[i])
    requires forall i :: 0 <= i < |titles| && titles[i] in table ==> table[titles[i]] == titles[i]
    ensures SwapOutTitles(table, titles) == titles
  {
    forall i | 0 <= i < |titles| ensures Clean(titles[i]) == titles[i] {
      CleanFixesCanonical(titles[i]);
    }
  }

  /**
    Cleaning keeps the title's text: a title already in the clean alphabet and
    without surrounding whitespace is its own cleaned form.
   */
  lemma CleanFixesCanonical(title: string)
    requires IsCleanForm(title) && IsStripped(title)
    ensures Clean(title) == title
  {
    UpperKeepsUpper(title);
    StripRemovesOnlySpace(title);
    ReplaceCrlfIdentity(title);
  }
}

=== FILE: importers.dfy ===
/**
  The two concrete importers. `PreviewImport` renders every line and
  persists nothing; `DatabaseImport` persists each line (a flight, a
  non-flight event, the user's records text, a plane) and renders it the way
  the preview does, followed by a banner row saying whether it was saved.
  The HTML of the preview rows, the forms' validation rules and the plane
  table's lookup are parameters.
 */
module Importers {
  import opened Wrappers
  import opened PyStr
  import opened Seqs
  import opened Status
  import opened Planes
  import opened Dispatch

  /** The preview renderings of `PreviewImport`'s four handlers. */
  datatype Previews = Previews(flight: Line -> string, nonflight: Line -> string, records: Line -> string, plane: Line -> string)
  {
    function For(b: Bucket): Line -> string {
      match b
      case FlightOut => flight
      case NonOut => nonflight
      case RecordsOut => records
      case PlaneOut => plane
    }
  }

  /** `PreviewImport`: each handler returns its line's rendering and touches no store. */
  function PreviewHandlers<S(!new)>(pv: Previews): (h: Handlers<S, Line, string>)
    ensures RendersAs(h, (b: Bucket, l: Line) => pv.For(b)(l))
  {
    StatelessRendersAs<S, Line, string>((b: Bucket, l: Line) => pv.For(b)(l));
    Stateless((b: Bucket, l: Line) => pv.For(b)(l))
  }

  /**
    A preview import without unrecognised lines fills list `b` with the
    preview renderings of exactly the lines of its kind, in file order.
   */
  lemma {:induction false} PreviewImportIsFilterMap<S(!new)>(pv: Previews, store: S, lines: seq<Classified<Line>>, b: Bucket)
    requires AllRecognised(lines)
    ensures var out := Action(PreviewHandlers<S>(pv), store, NoOutput(), lines).out.Get(b);
      && |out| == |Select(lines, b)|
      && forall i :: 0 <= i < |out| ==> out[i] == pv.For(b)(Select(lines, b)[i])
  {
    var render := (b: Bucket, l: Line) => pv.For(b)(l);
    StatelessRendersAs<S, Line, string>(render);
    StatelessActionIsFilterMap(PreviewHandlers<S>(pv), render, store, NoOutput(), lines, b);
    RenderedIsSelectRendered(render, lines, b);
    var rendered := Rendered(render, lines, b);
    assert Action(PreviewHandlers<S>(pv), store, NoOutput(), lines).out.Get(b) == [] + rendered;
    forall i | 0 <= i < |rendered| ensures rendered[i] == pv.For(b)(Select(lines, b)[i]) {
      assert rendered[i] == render(b, Select(lines, b)[i]);
    }
  }

  /** What the database holds for the importing users. */
  datatype Db = Db(
    planes: PlaneStore,
    flights: seq<(UserId, Line)>,
    nonFlights: seq<(UserId, Line)>,
    records: map<UserId, string>)

  /**
    The libraries `DatabaseImport` calls: the plane table's answer to a
    lookup, the validation errors of `ImportFlightForm` and `NonFlightForm`
    (`None` when the form is valid), and the exception a plane's `save`
    raises, if any.
   */
  datatype Backend = Backend(
    resolvePlane: PlaneQuery -> nat,
    flightErrors: Line -> Option<string>,
    nonFlightErrors: Line -> Option<string>,
    planeSaveError: (PlaneKey, PlaneAttrs) -> Option<string>)

  /** The message a form's outcome gives: `'good'`, or its errors. */
  function FormMessage(errors: Option<string>): (m: Message)
    ensures m == Good <==> errors.None?
  {
    match errors
    case None => Good
    case Some(e) => Problem(e)
  }

  /** The flight line `handle_flight` validates: the classified line with the plane's primary key under `plane`. */
  function WithPlane(line: Line, user: UserId, be: Backend): (l: Line)
    ensures l.Keys == line.Keys + {"plane"}
    ensures forall k :: k in line && k != "plane" ==> l[k] == line[k]
    ensures l["plane"] == DecimalString(PlanePk(PlaneQueryFor(line, user), be.resolvePlane))
  {
    line["plane" := DecimalString(PlanePk(PlaneQueryFor(line, user), be.resolvePlane))]
  }

  /**
    `DatabaseImport.handle_flight`: the plane lookup runs first and may add a
    plane row, whether or not the flight is then accepted; the line, with its
    plane's key added, is saved as a flight when the form accepts it and not
    otherwise; the non-flight and records tables do not change. The
    rendering is the preview of that line followed by the success banner
    exactly when it was saved, and otherwise by the failure row carrying
    the form's errors.
   */
  function CommitFlight(db: Db, user: UserId, be: Backend, pv: Previews, line: Line): (r: (Db, string))
    ensures var l := WithPlane(line, user, be);
      && r.0.flights == (if be.flightErrors(l).None? then db.flights + [(user, l)] else db.flights)
      && r.0.planes == FlightPlaneRow(db.planes, PlaneQueryFor(line, user))
      && r.0.nonFlights == db.nonFlights && r.0.records == db.records
      && |r.1| > |pv.flight(l)| && r.1[..|pv.flight(l)|] == pv.flight(l)
      && (r.1[|pv.flight(l)|..] == GoodBanner <==> be.flightErrors(l).None?)
      && (be.flightErrors(l).Some? ==> r.1[|pv.flight(l)|..] == BadBanner(be.flightErrors(l).value))
  {
    var planes := FlightPlaneRow(db.planes, PlaneQueryFor(line, user));
    var l := WithPlane(line, user, be);
    var errors := be.flightErrors(l);
    var db' := db.(planes := planes, flights := if errors.None? then db.flights + [(user, l)] else db.flights);
    (db', StatusDecorator(pv.flight, l, FormMessage(errors)))
  }

  /**
    A flight with a blank tail number is saved bound to plane 90 whatever the
    plane table holds, and the plane table is left as it was.
   */
  lemma BlankTailFlightSavedWithUnknownPlane(db: Db, user: UserId, be: Backend, pv: Previews, line: Line)
    requires "tailnumber" in line && line["tailnumber"] == ""
    requires be.flightErrors(WithPlane(line, user, be)).None?
    ensures var r := CommitFlight(db, user, be, pv, line).0;
      |r.flights| == |db.flights| + 1 && r.flights[|db.flights|].1["plane"] == "90" && r.planes == db.planes
  {
    BlankTailIsUnknownPlane(line, user, be.resolvePlane, be.resolvePlane);
    var d := DecimalString(UnknownPlanePk);
    assert d == DecimalString(9) + ['0'];
    assert DecimalString(9) == ['9'];
  }

  /**
    `DatabaseImport.handle_nonflight`: the line is saved as a non-flight
    event when the form accepts it; the rendering carries the success banner
    exactly then, and otherwise the failure row with the form's errors.
   */
  function CommitNonFlight(db: Db, user: UserId, be: Backend, pv: Previews, line: Line): (r: (Db, string))
    ensures r.0.nonFlights == (if be.nonFlightErrors(line).None? then db.nonFlights + [(user, line)] else db.nonFlights)
    ensures r.0.planes == db.planes && r.0.flights == db.flights && r.0.records == db.records
    ensures |r.1| > |pv.nonflight(line)| && r.1[..|pv.nonflight(line)|] == pv.nonflight(line)
    ensures r.1[|pv.nonflight(line)|..] == GoodBanner <==> be.nonFlightErrors(line).None?
    ensures be.nonFlightErrors(line).Some? ==>
      r.1[|pv.nonflight(line)|..] == BadBanner(be.nonFlightErrors(line).value)
  {
    var errors := be.nonFlightErrors(line);
    var db' := if errors.None? then db.(nonFlights := db.nonFlights + [(user, line)]) else db;
    (db', StatusDecorator(pv.nonflight, line, FormMessage(errors)))
  }

  /**
    `DatabaseImport.handle_records`: the user's single records row gets the
    line's text, other users' rows and the other tables are untouched, and
    the rendering is the bare preview, without a banner.
   */
  function CommitRecords(db: Db, user: UserId, pv: Previews, line: Line): (r: (Db, string))
    requires "records" in line
    ensures r.0.records.Keys == db.records.Keys + {user}
    ensures r.0.records[user] == line["records"]
    ensures forall u :: u in db.records && u != user ==> r.0.records[u] == db.records[u]
    ensures r.0.planes == db.planes && r.0.flights == db.flights && r.0.nonFlights == db.nonFlights
    ensures r.1 == pv.records(line)
  {
    (db.(records := db.records[user := line["records"]]), pv.records(line))
  }

  /** Of two records lines for one user, the later one's text is what the user keeps. */
  lemma LaterRecordsWin(db: Db, user: UserId, pv: Previews, first: Line, second: Line)
    requires "records" in first && "records" in second
    ensures CommitRecords(CommitRecords(db, user, pv, first).0, user, pv, second).0.records[user] == second["records"]
  {
  }

  /** The fields `handle_plane` reads with `line[...]`. */
  predicate HasPlaneFields(line: Line) {
    "tailnumber" in line && "type" in line && "manufacturer" in line &&
    "model" in line && "cat_class" in line && "tags" in line
  }

  /**
    The row `handle_plane` looks up: two plane lines of one user reach the
    same row exactly when they agree on tail number and type.
   */
  function PlaneKeyOf(line: Line, user: UserId): PlaneKey
    requires HasPlaneFields(line)
  {
    PlaneKey(user, line["tailnumber"], line["type"])
  }

  lemma SameRowExactlyForSameTailAndType(first: Line, second: Line, user: UserId)
    requires HasPlaneFields(first) && HasPlaneFields(second)
    ensures PlaneKeyOf(first, user).user == user
    ensures PlaneKeyOf(first, user) == PlaneKeyOf(second, user) <==>
      first["tailnumber"] == second["tailnumber"] && first["type"] == second["type"]
  {
  }

  /**
    The fields `handle_plane` writes: manufacturer, model and class as given,
    and the line's tags normalised, which read back as its comma-separated
    tags when they hold no `"`.
   */
  function PlaneAttrsOf(line: Line): (a: PlaneAttrs)
    requires HasPlaneFields(line)
    ensures a.manufacturer == line["manufacturer"] && a.model == line["model"] && a.catClass == line["cat_class"]
    ensures a.tags == NormalizeTags(line["tags"])
    ensures '"' !in line["tags"] ==> ParseTags(a.tags) == Tokens(Split(line["tags"], ','))
  {
    var tags := line["tags"];
    assert '"' !in tags ==> ParseTags(NormalizeTags(tags)) == Tokens(Split(tags, ',')) by {
      if '"' !in tags {
        TagsRoundTrip(tags);
      }
    }
    PlaneAttrs(line["manufacturer"], line["model"], line["cat_class"], NormalizeTags(line["tags"]))
  }

  /**
    `DatabaseImport.handle_plane`: the row for the line's user, tail number
    and type exists afterwards (created if new); it holds the line's fields,
    tags normalised, unless the save raised; no other row or table changes;
    the rendering carries the success banner exactly when the save did not
    raise, and the exception's text otherwise.
   */
  function CommitPlane(db: Db, user: UserId, be: Backend, pv: Previews, line: Line): (r: (Db, string))
    requires HasPlaneFields(line)
    ensures var key := PlaneKeyOf(line, user);
      && r.0.planes.Keys == db.planes.Keys + {key}
      && (forall k :: k in db.planes && k != key ==> r.0.planes[k] == db.planes[k])
      && (be.planeSaveError(key, PlaneAttrsOf(line)).None? ==>
            r.0.planes[key].tags == NormalizeTags(line["tags"]) &&
            r.0.planes[key].manufacturer == line["manufacturer"] &&
            r.0.planes[key].model == line["model"] &&
            r.0.planes[key].catClass == line["cat_class"])
      && (be.planeSaveError(key, PlaneAttrsOf(line)).Some? && key in db.planes ==> r.0.planes[key] == db.planes[key])
    ensures r.0.flights == db.flights && r.0.nonFlights == db.nonFlights && r.0.records == db.records
    ensures |r.1| > |pv.plane(line)| && r.1[..|pv.plane(line)|] == pv.plane(line)
    ensures r.1[|pv.plane(line)|..] == GoodBanner <==> be.planeSaveError(PlaneKeyOf(line, user), PlaneAttrsOf(line)).None?
    ensures be.planeSaveError(PlaneKeyOf(line, user), PlaneAttrsOf(line)).Some? ==>
      r.1[|pv.plane(line)|..] == BadBanner(be.planeSaveError(PlaneKeyOf(line, user), PlaneAttrsOf(line)).value)
  {
    var key := PlaneKeyOf(line, user);
    var attrs := PlaneAttrsOf(line);
    var err := be.planeSaveError(key, attrs);
    (db.(planes := UpsertPlane(db.planes, key, attrs, err.Some?)), StatusDecorator(pv.plane, line, FormMessage(err)))
  }

  /**
    `DatabaseImport`'s handlers for one user. A records or plane line that
    lacks a field the source indexes is rendered without touching the
    database.
   */
  function DatabaseHandlers(user: UserId, be: Backend, pv: Previews): (h: Handlers<Db, Line, string>)
    ensures forall db, l :: "records" !in l ==> h.records(db, l) == (db, pv.records(l))
    ensures forall db, l :: !HasPlaneFields(l) ==> h.plane(db, l) == (db, pv.plane(l))
  {
    Handlers(
      (db, l) => CommitFlight(db, user, be, pv, l),
      (db, l) => CommitNonFlight(db, user, be, pv, l),
      (db, l) => if "records" in l then CommitRecords(db, user, pv, l) else (db, pv.records(l)),
      (db, l) => if HasPlaneFields(l) then CommitPlane(db, user, be, pv, l) else (db, pv.plane(l)))
  }

  /**
    What `DatabaseImport`'s handler for list `b` renders for a line, which
    does not depend on the database: the preview of the line (for a flight,
    the line with its plane key) followed, except for a records line or a
    line that lacks a plane field, by the banner of the form's or the save's
    outcome.
   */
  function DatabaseRendering(user: UserId, be: Backend, pv: Previews, b: Bucket, line: Line): (r: string)
    ensures b == RecordsOut ==> r == pv.records(line)
    ensures b == FlightOut ==>
      var l := WithPlane(line, user, be);
      && |r| > |pv.flight(l)| && r[..|pv.flight(l)|] == pv.flight(l)
      && (r[|pv.flight(l)|..] == GoodBanner <==> be.flightErrors(l).None?)
      && (be.flightErrors(l).Some? ==> r[|pv.flight(l)|..] == BadBanner(be.flightErrors(l).value))
    ensures b == NonOut ==>
      && |r| > |pv.nonflight(line)| && r[..|pv.nonflight(line)|] == pv.nonflight(line)
      && (r[|pv.nonflight(line)|..] == GoodBanner <==> be.nonFlightErrors(line).None?)
      && (be.nonFlightErrors(line).Some? ==> r[|pv.nonflight(line)|..] == BadBanner(be.nonFlightErrors(line).value))
    ensures b == PlaneOut && !HasPlaneFields(line) ==> r == pv.plane(line)
    ensures b == PlaneOut && HasPlaneFields(line) ==>
      var err := be.planeSaveError(PlaneKeyOf(line, user), PlaneAttrsOf(line));
      && |r| > |pv.plane(line)| && r[..|pv.plane(line)|] == pv.plane(line)
      && (err.None? ==> r[|pv.plane(line)|..] == GoodBanner)
      && (err.Some? ==> r[|pv.plane(line)|..] == BadBanner(err.value))
  {
    match b
    case FlightOut =>
      var l := WithPlane(line, user, be);
      StatusDecorator(pv.flight, l, FormMessage(be.flightErrors(l)))
    case NonOut => StatusDecorator(pv.nonflight, line, FormMessage(be.nonFlightErrors(line)))
    case RecordsOut => pv.records(line)
    case PlaneOut =>
      if HasPlaneFields(line) then
        StatusDecorator(pv.plane, line, FormMessage(be.planeSaveError(PlaneKeyOf(line, user), PlaneAttrsOf(line))))
      else pv.plane(line)
  }

  function DatabaseRenderingOf(user: UserId, be: Backend, pv: Previews): (Bucket, Line) -> string {
    (b: Bucket, l: Line) => DatabaseRendering(user, be, pv, b, l)
  }

  /** Whatever the database holds, each of `DatabaseImport`'s handlers renders a line the same way. */
  lemma DatabaseRendersIgnoringStore(user: UserId, be: Backend, pv: Previews)
    ensures RendersIgnoringStore(DatabaseHandlers(user, be, pv), DatabaseRenderingOf(user, be, pv))
  {
    var h := DatabaseHandlers(user, be, pv);
    forall b, db, l ensures h.For(b)(db, l).1 == DatabaseRendering(user, be, pv, b, l) {
      HandlerRendering(user, be, pv, b, db, l);
    }
  }

  lemma HandlerRendering(user: UserId, be: Backend, pv: Previews, b: Bucket, db: Db, l: Line)
    ensures DatabaseHandlers(user, be, pv).For(b)(db, l).1 == DatabaseRendering(user, be, pv, b, l)
  {
    match b
    case FlightOut =>
    case NonOut =>
    case RecordsOut =>
    case PlaneOut =>
  }

  /**
    A database import without unrecognised lines fills list `b` with the
    database renderings of exactly the lines of its kind, in file order,
    whatever the handlers persist on the way.
   */
  lemma {:induction false} DatabaseImportIsFilterMap(user: UserId, be: Backend, pv: Previews, db: Db, lines: seq<Classified<Line>>, b: Bucket)
    requires AllRecognised(lines)
    ensures var out := Action(DatabaseHandlers(user, be, pv), db, NoOutput(), lines).out.Get(b);
      && |out| == |Select(lines, b)|
      && forall i :: 0 <= i < |out| ==> out[i] == DatabaseRendering(user, be, pv, b, Select(lines, b)[i])
  {
    var render := DatabaseRenderingOf(user, be, pv);
    DatabaseRendersIgnoringStore(user, be, pv);
    ActionIsFilterMap(DatabaseHandlers(user, be, pv), render, db, NoOutput(), lines, b);
    RenderedIsSelectRendered(render, lines, b);
    var rendered := Rendered(render, lines, b);
    assert Action(DatabaseHandlers(user, be, pv), db, NoOutput(), lines).out.Get(b) == [] + rendered;
    forall i | 0 <= i < |rendered| ensures rendered[i] == DatabaseRendering(user, be, pv, b, Select(lines, b)[i]) {
      assert rendered[i] == render(b, Select(lines, b)[i]);
    }
  }

  /** The flight one line saves: its line with the plane key, when it is a flight line the form accepts. */
  function SavedFlight(user: UserId, be: Backend, line: Classified<Line>): seq<(UserId, Line)> {
    var l := WithPlane(line.1, user, be);
    if KindOf(line.0) == FlightLine && be.flightErrors(l).None? then [(user, l)] else []
  }

  function SavedFlightOf(user: UserId, be: Backend): Classified<Line> -> seq<(UserId, Line)> {
    line => SavedFlight(user, be, line)
  }

  /** The flights the lines save, in file order. */
  function SavedFlights(user: UserId, be: Backend, lines: seq<Classified<Line>>): seq<(UserId, Line)>
    decreases |lines|
  {
    if lines == [] then [] else SavedFlight(user, be, lines[0]) + SavedFlights(user, be, lines[1..])
  }

  lemma {:induction false} GatheredSavedFlights(user: UserId, be: Backend, lines: seq<Classified<Line>>)
    ensures Gathered(SavedFlightOf(user, be), lines) == SavedFlights(user, be, lines)
    decreases |lines|
  {
    if lines != [] {
      GatheredSavedFlights(user, be, lines[1..]);
    }
  }

  function FlightsOf(db: Db): seq<(UserId, Line)> {
    db.flights
  }

  /** Only a flight line changes the flight table, and by its own saved flight. */
  lemma DatabaseStepFlights(user: UserId, be: Backend, pv: Previews, db: Db, out: Accumulators<string>, line: Classified<Line>)
    requires Recognised(line)
    ensures Step(DatabaseHandlers(user, be, pv), db, out, KindOf(line.0), line.1).0.flights
      == db.flights + SavedFlight(user, be, line)
  {
    var k := KindOf(line.0);
    if BucketOf(k).Some? {
      HandlerFlights(user, be, pv, db, line, BucketOf(k).value);
    }
  }

  /** The flight table after one database handler: grown by the line's saved flight for a flight line, unchanged otherwise. */
  lemma HandlerFlights(user: UserId, be: Backend, pv: Previews, db: Db, line: Classified<Line>, b: Bucket)
    requires BucketOf(KindOf(line.0)) == Some(b)
    ensures DatabaseHandlers(user, be, pv).For(b)(db, line.1).0.flights == db.flights + SavedFlight(user, be, line)
  {
    var l := line.1;
    match b
    case FlightOut =>
      CommitFlightSaves(db, user, be, pv, line);
    case NonOut =>
      assert CommitNonFlight(db, user, be, pv, l).0.flights == db.flights;
    case RecordsOut =>
      if "records" in l {
        assert CommitRecords(db, user, pv, l).0.flights == db.flights;
      }
    case PlaneOut =>
      if HasPlaneFields(l) {
        assert CommitPlane(db, user, be, pv, l).0.flights == db.flights;
      }
  }

  lemma CommitFlightSaves(db: Db, user: UserId, be: Backend, pv: Previews, line: Classified<Line>)
    requires KindOf(line.0) == FlightLine
    ensures CommitFlight(db, user, be, pv, line.1).0.flights == db.flights + SavedFlight(user, be, line)
  {
  }

  /**
    A database import without unrecognised lines saves exactly the flight
    lines the form accepts, in file order, each with its plane's key; no
    other line adds a flight.
   */
  lemma {:induction false} DatabaseSavesAcceptedFlights(
    user: UserId, be: Backend, pv: Previews, db: Db, out: Accumulators<string>, lines: seq<Classified<Line>>)
    requires AllRecognised(lines)
    ensures Action(DatabaseHandlers(user, be, pv), db, out, lines).store.flights
      == db.flights + SavedFlights(user, be, lines)
  {
    GatheredSavedFlights(user, be, lines);
    var h := DatabaseHandlers(user, be, pv);
    forall s: Db, o: Accumulators<string>, line: Classified<Line> | Recognised(line)
      ensures FlightsOf(Step(h, s, o, KindOf(line.0), line.1).0) == FlightsOf(s) + SavedFlightOf(user, be)(line)
    {
      DatabaseStepFlights(user, be, pv, s, o, line);
    }
    ActionGathers(h, FlightsOf, SavedFlightOf(user, be), db, out, lines);
  }
}

=== FILE: pipeline.dfy ===
/**
  A whole import run, `BaseImport.__init__` followed by `action`: refuse a
  missing file, choose the dialect, read and normalise the header row, then
  classify each data row and hand it to the dispatch loop. The csv reader,
  the line classifier and the column table are parameters.
 */
module Pipeline {
  import opened Wrappers
  import opened Seqs
  import opened ImportErrors
  import opened Headers
  import opened Dialects
  import opened Dispatch

  /**
    What the run reads with: the legacy column table, the dialect sniffer,
    the csv reader (the file's rows under a dialect) and the line classifier
    (a data row under the normalised titles, to its line type and fields).
   */
  datatype Reading<L> = Reading(
    columnNames: map<string, string>,
    sniff: string -> Option<Dialect>,
    readRows: (string, Dialect) -> seq<seq<string>>,
    classify: (seq<string>, seq<string>) -> Classified<L>)

  /**
    How a run ends. `Refused` is the constructor raising, before any list
    exists. `Ran` carries the store and the four lists as the run left them,
    and the error `action` raised, if any.
   */
  datatype Outcome<S, R> =
    | Refused(refusal: ImportError)
    | Ran(store: S, out: Accumulators<R>, error: Option<ImportError>)

  /** The data rows `DictReader` yields: every row after the header that is not empty, in order. */
  function DataRows(rows: seq<seq<string>>): (data: seq<seq<string>>)
    ensures |data| <= |rows|
    ensures forall i :: 0 <= i < |data| ==> data[i] != []
    decreases |rows|
  {
    if |rows| <= 1 then []
    else (if rows[1] != [] then [rows[1]] else []) + DataRows(rows[1..])
  }

  /**
    Reading one more row: a header row alone yields no data rows, and each
    further row is yielded after the earlier ones when it is not empty and
    skipped when it is.
   */
  lemma {:induction false} DataRowsAppend(rows: seq<seq<string>>, row: seq<string>)
    requires rows != []
    ensures DataRows([rows[0]]) == []
    ensures DataRows(rows + [row]) == DataRows(rows) + (if row != [] then [row] else [])
    decreases |rows|
  {
    var all := rows + [row];
    assert all[1..] == rows[1..] + [row];
    if |rows| == 1 {
      assert all[1..] == [row];
      assert DataRows([row]) == [];
    } else {
      assert all[1] == rows[1];
      DataRowsAppend(rows[1..], row);
      AppendAssoc(if rows[1] != [] then [rows[1]] else [], DataRows(rows[1..]), if row != [] then [row] else []);
    }
  }

  /** The classified lines of a file whose rows start with the header row `rows[0]`. */
  function Lines<L>(rd: Reading<L>, rows: seq<seq<string>>): (lines: seq<Classified<L>>)
    requires rows != []
    ensures |lines| == |DataRows(rows)|
    ensures forall i :: 0 <= i < |lines| ==>
      lines[i] == rd.classify(SwapOutTitles(rd.columnNames, rows[0]), DataRows(rows)[i])
  {
    var titles := SwapOutTitles(rd.columnNames, rows[0]);
    MapSeq((row: seq<string>) => rd.classify(titles, row), DataRows(rows))
  }

  /** The error a dispatch failure surfaces as. */
  function Raised(failure: Option<string>): (e: Option<ImportError>)
    ensures e.None? <==> failure.None?
    ensures failure.Some? ==> e == Some(UnrecognisedLine(failure.value))
  {
    match failure
    case None => None
    case Some(t) => Some(UnrecognisedLine(t))
  }

  /**
    One import run. No file: refused with `NoFileError`. A sniff failure or a
    file without a header row: `InvalidCsvError`, with the store untouched
    and all four lists empty. Otherwise the dispatch loop over the classified
    data rows, failing on the first unrecognised line type.
   */
  function Import<S, L, R>(file: Option<string>, forceTsv: bool, rd: Reading<L>, h: Handlers<S, L, R>, store: S): (o: Outcome<S, R>)
    ensures o.Refused? <==> file.None?
    ensures o.Refused? ==> o.refusal == NoFileError
    ensures o.Ran? ==>
      (o.error == Some(InvalidCsvError) <==>
        ChooseDialect(forceTsv, rd.sniff, file.value).Err? ||
        rd.readRows(file.value, ChooseDialect(forceTsv, rd.sniff, file.value).value) == [])
    ensures o.Ran? && o.error == Some(InvalidCsvError) ==> o.store == store && o.out == NoOutput()
    ensures o.Ran? && o.error.Some? && !o.error.value.InvalidCsvError? ==>
      o.error.value.UnrecognisedLine? && KindOf(o.error.value.lineType) == Unrecognised
  {
    match file
    case None => Refused(NoFileError)
    case Some(contents) =>
      match ChooseDialect(forceTsv, rd.sniff, contents)
      case Err(e) => Ran(store, NoOutput(), Some(e))
      case Ok(dialect) =>
        var rows := rd.readRows(contents, dialect);
        if rows == [] then Ran(store, NoOutput(), Some(InvalidCsvError))
        else
          var p := Action(h, store, NoOutput(), Lines(rd, rows));
          Ran(p.store, p.out, Raised(p.failure))
  }

  /** With `forceTsv` the run does not depend on the sniffer at all. */
  lemma ForcedTabRunIgnoresSniffer<S, L, R>(file: Option<string>, rd: Reading<L>, sniff: string -> Option<Dialect>, h: Handlers<S, L, R>, store: S)
    ensures Import(file, true, rd, h, store) == Import(file, true, rd.(sniff := sniff), h, store)
  {
    if file.Some? {
      ForcedTabIgnoresSniffer(rd.sniff, sniff, file.value);
    }
  }

  /**
    A run over a readable file whose lines are all recognised ends without
    error, and each list holds one entry per data row of its kind.
   */
  lemma {:induction false} CleanRunCounts<S, L, R>(contents: string, forceTsv: bool, rd: Reading<L>, h: Handlers<S, L, R>, store: S)
    requires ChooseDialect(forceTsv, rd.sniff, contents).Ok?
    requires rd.readRows(contents, ChooseDialect(forceTsv, rd.sniff, contents).value) != []
    requires AllRecognised(Lines(rd, rd.readRows(contents, ChooseDialect(forceTsv, rd.sniff, contents).value)))
    ensures var o := Import(Some(contents), forceTsv, rd, h, store);
      var lines := Lines(rd, rd.readRows(contents, ChooseDialect(forceTsv, rd.sniff, contents).value));
      && o.Ran? && o.error.None?
      && forall b :: |o.out.Get(b)| == |Select(lines, b)|
  {
    var lines := Lines(rd, rd.readRows(contents, ChooseDialect(forceTsv, rd.sniff, contents).value));
    ActionCounts(h, store, NoOutput(), lines);
  }

  /**
    A run that meets an unrecognised line type at data line `k` raises with
    that type and leaves the store and the lists as the first `k` lines
    left them.
   */
  lemma {:induction false} FailedRunKeepsEarlierLines<S, L, R>(
    contents: string, forceTsv: bool, rd: Reading<L>, h: Handlers<S, L, R>, store: S, k: nat)
    requires ChooseDialect(forceTsv, rd.sniff, contents).Ok?
    requires rd.readRows(contents, ChooseDialect(forceTsv, rd.sniff, contents).value) != []
    requires var lines := Lines(rd, rd.readRows(contents, ChooseDialect(forceTsv, rd.sniff, contents).value));
      k < |lines| && !Recognised(lines[k]) && AllRecognised(lines[..k])
    ensures var o := Import(Some(contents), forceTsv, rd, h, store);
      var lines := Lines(rd, rd.readRows(contents, ChooseDialect(forceTsv, rd.sniff, contents).value));
      var p := Action(h, store, NoOutput(), lines[..k]);
      o == Ran(p.store, p.out, Some(UnrecognisedLine(lines[k].0)))
  {
    var lines := Lines(rd, rd.readRows(contents, ChooseDialect(forceTsv, rd.sniff, contents).value));
    ActionStopsAtFirstUnrecognised(h, store, NoOutput(), lines, k);
  }
}

=== FILE: planes.dfy ===
/**
  The plane logic of `DatabaseImport`: the lookup key `handle_flight`
  builds for a flight's plane, the tag normalisation of `handle_plane`, and
  the plane table both write into, as a store keyed by user, tail number and
  type.
 */
module Planes {
  import opened Wrappers
  import opened PyStr
  import opened Seqs

  type UserId = int

  /** A classified line: field name to value. */
  type Line = map<string, string>

  /** `line.get(key)`. */
  function Get(line: Line, key: string): (v: Option<string>)
    ensures v.Some? <==> key in line
    ensures v.Some? ==> v.value == line[key]
  {
    if key in line then Some(line[key]) else None
  }

  /** The primary key of the plane standing for "unknown plane". */
  const UnknownPlanePk: nat := 90

  /** What `handle_flight` asks the plane table for. */
  datatype PlaneQuery =
    /** `get_or_create` with these keyword arguments; an absent type is no constraint on the type. */
    | Lookup(tailnumber: Option<string>, user: UserId, planeType: Option<string>)
    /** A blank tail number: the sentinel plane, without any lookup. */
    | UnknownPlane

  /**
    The plane lookup of `handle_flight`. Only a tail number that is present
    and empty selects the sentinel; a missing one is looked up as `None`.
    The type joins the lookup only when it is present and non-empty.
   */
  function PlaneQueryFor(line: Line, user: UserId): (q: PlaneQuery)
    ensures q.UnknownPlane? <==> "tailnumber" in line && line["tailnumber"] == ""
    ensures q.Lookup? ==> q.user == user && q.tailnumber == Get(line, "tailnumber")
    ensures q.Lookup? ==> (q.planeType.Some? <==> "type" in line && line["type"] != "")
    ensures q.Lookup? && q.planeType.Some? ==> q.planeType.value == line["type"] && q.planeType.value != ""
  {
    if Get(line, "tailnumber") != Some("") then
      var t := Get(line, "type");
      Lookup(Get(line, "tailnumber"), user, if t.Some? && t.value != "" then t else None)
    else
      UnknownPlane
  }

  /**
    The primary key the flight is bound to: the sentinel's for a blank tail
    number, otherwise whatever the plane table answers for the lookup.
   */
  function PlanePk(q: PlaneQuery, resolve: PlaneQuery -> nat): (pk: nat)
    ensures q.UnknownPlane? ==> pk == UnknownPlanePk
    ensures q.Lookup? ==> pk == resolve(q)
  {
    match q
    case UnknownPlane => UnknownPlanePk
    case Lookup(_, _, _) => resolve(q)
  }

  /** A blank tail number binds the flight to plane 90 whatever the plane table holds. */
  lemma BlankTailIsUnknownPlane(line: Line, user: UserId, resolve1: PlaneQuery -> nat, resolve2: PlaneQuery -> nat)
    requires "tailnumber" in line && line["tailnumber"] == ""
    ensures PlanePk(PlaneQueryFor(line, user), resolve1) == UnknownPlanePk
    ensures PlanePk(PlaneQueryFor(line, user), resolve1) == PlanePk(PlaneQueryFor(line, user), resolve2)
  {
  }

  /** One comma-separated piece of a tag list: stripped, then wrapped in `"` when `find(" ") > 0`. */
  function QuoteTag(piece: string): (r: string)
    ensures r == Strip(piece) || r == "\"" + Strip(piece) + "\""
    ensures ' ' !in Strip(piece) ==> r == Strip(piece)
  {
    var tag := Strip(piece);
    if Find(tag, ' ') > 0 then "\"" + tag + "\"" else tag
  }

  /**
    Because the piece is stripped first, `find(" ") > 0` holds exactly when
    the stripped piece contains a space at all: a piece is quoted if and only
    if it has an interior space.
   */
  lemma QuotedExactlyWhenSpaced(piece: string)
    ensures QuoteTag(piece) == if ' ' in Strip(piece) then "\"" + Strip(piece) + "\"" else Strip(piece)
  {
    var tag := Strip(piece);
    if ' ' in tag {
      assert Find(tag, ' ') != 0 by {
        assert !IsSpace(tag[0]);
      }
    }
  }

  /**
    The tag normalisation of `handle_plane`: an empty tag list gives the
    empty string; otherwise each comma-separated piece, stripped and quoted
    when it holds a space, joined with single spaces.
   */
  function NormalizeTags(tags: string): (r: string)
    ensures tags == "" ==> r == ""
    ensures ',' !in tags ==> r == QuoteTag(tags)
  {
    if tags == "" then "" else Join(" ", MapSeq(QuoteTag, Split(tags, ',')))
  }

  /**
    A list with a comma normalises piece by piece: the first piece on its
    own, one space, then the rest. An empty piece contributes an empty tag,
    so `a,,b` gives `a  b`. With the comma-free case of `NormalizeTags` this
    fixes the normalised text of every tag list.
   */
  lemma NormalizeTagsCons(a: string, b: string)
    requires ',' !in a
    ensures NormalizeTags(a + "," + b) == QuoteTag(a) + " " + NormalizeTags(b)
  {
    var s := a + "," + b;
    assert s[|a|] == ',';
    assert s == a + ([','] + b);
    FindAfterPrefix(a, [','] + b, ',');
    SplitUnfold(s, ',');
    assert s[..|a|] == a;
    assert s[|a| + 1..] == b;
    var rest := Split(b, ',');
    assert Split(s, ',') == [a] + rest;
    assert MapSeq(QuoteTag, [a] + rest) == [QuoteTag(a)] + MapSeq(QuoteTag, rest);
    JoinCons(" ", QuoteTag(a), MapSeq(QuoteTag, rest));
    if b == "" {
      assert rest == [""];
      assert MapSeq(QuoteTag, rest) == [QuoteTag("")];
      assert Strip("") == "";
      assert QuoteTag("") == "";
    }
  }

  /** The tag a piece contributes once read back: its stripped text, or nothing when that is empty. */
  function Tok(piece: string): seq<string> {
    if Strip(piece) == "" then [] else [Strip(piece)]
  }

  /** The tags of a list of pieces, in order. */
  function Tokens(pieces: seq<string>): (ts: seq<string>)
    ensures forall i :: 0 <= i < |ts| ==> ts[i] != "" && IsStripped(ts[i])
  {
    if pieces == [] then [] else Tok(pieces[0]) + Tokens(pieces[1..])
  }

  /**
    A reader of space-separated tag lists, as the plane's tag field is
    parsed downstream: spaces separate tags, and a double-quoted run is one
    tag that may contain spaces.
   */
  function ParseTags(s: string): seq<string>
    decreases |s|
  {
    if s == [] then []
    else if s[0] == ' ' then ParseTags(s[1..])
    else if s[0] == '"' then
      var body := s[1..];
      var k := Find(body, '"');
      if k == -1 then [body]
      else (if k == 0 then [] else [body[..k]]) + ParseTags(body[k + 1..])
    else
      var k := Find(s, ' ');
      if k == -1 then [s] else [s[..k]] + ParseTags(s[k..])
  }

  /** A normalised piece followed by the end or by a space reads back as the piece's tag. */
  lemma ParseAfterTag(piece: string, tail: string)
    requires '"' !in piece
    requires tail == [] || tail[0] == ' '
    ensures ParseTags(QuoteTag(piece) + tail) == Tok(piece) + ParseTags(tail)
  {
    var q := Strip(piece);
    StripRemovesOnlySpace(piece);
    assert '"' !in q;
    QuotedExactlyWhenSpaced(piece);
    if q == [] {
      assert QuoteTag(piece) + tail == tail;
    } else if ' ' in q {
      ParseQuoted(q, tail);
    } else {
      ParsePlain(q, tail);
    }
  }

  lemma ParseQuoted(q: string, tail: string)
    requires q != [] && '"' !in q
    ensures ParseTags("\"" + q + "\"" + tail) == [q] + ParseTags(tail)
  {
    var s := "\"" + q + "\"" + tail;
    var body := s[1..];
    assert body == q + ("\"" + tail);
    FindAfterPrefix(q, "\"" + tail, '"');
    assert body[..|q|] == q;
    assert body[|q| + 1..] == tail;
  }

  lemma ParsePlain(q: string, tail: string)
    requires q != [] && '"' !in q && ' ' !in q
    requires tail == [] || tail[0] == ' '
    ensures ParseTags(q + tail) == [q] + ParseTags(tail)
  {
    var s := q + tail;
    assert s[0] == q[0];
    if tail == [] {
      assert s == q;
    } else {
      FindAfterPrefix(q, tail, ' ');
      assert s[..|q|] == q;
      assert s[|q|..] == tail;
    }
  }

  lemma ParseSkipsSpace(s: string)
    ensures ParseTags(" " + s) == ParseTags(s)
  {
    assert (" " + s)[1..] == s;
  }

  lemma {:induction false} ParseJoinedTags(pieces: seq<string>)
    requires pieces != []
    requires forall i :: 0 <= i < |pieces| ==> '"' !in pieces[i]
    ensures ParseTags(Join(" ", MapSeq(QuoteTag, pieces))) == Tokens(pieces)
    decreases |pieces|
  {
    var ts := MapSeq(QuoteTag, pieces);
    if |pieces| == 1 {
      ParseAfterTag(pieces[0], []);
      assert QuoteTag(pieces[0]) + [] == QuoteTag(pieces[0]);
      assert Tokens(pieces) == Tok(pieces[0]) + Tokens([]);
    } else {
      var rest := Join(" ", MapSeq(QuoteTag, pieces[1..]));
      assert ts[1..] == MapSeq(QuoteTag, pieces[1..]);
      assert Join(" ", ts) == QuoteTag(pieces[0]) + (" " + rest);
      ParseAfterTag(pieces[0], " " + rest);
      ParseSkipsSpace(rest);
      ParseJoinedTags(pieces[1..]);
    }
  }

  /**
    The point of the quoting: reading the normalised tag list back with the
    space-separated reader gives exactly the stripped non-empty
    comma-separated tags, in order, provided the list holds no `"`.
   */
  lemma {:induction false} TagsRoundTrip(tags: string)
    requires '"' !in tags
    ensures ParseTags(NormalizeTags(tags)) == Tokens(Split(tags, ','))
  {
    var pieces := Split(tags, ',');
    if tags == "" {
      assert pieces == [""];
      assert Tokens(pieces) == Tok("") + Tokens([]);
    } else {
      forall i | 0 <= i < |pieces| ensures '"' !in pieces[i] {
        SplitPiecesFromInput(tags, ',', i, '"');
      }
      ParseJoinedTags(pieces);
    }
  }

  /** Every character of a piece of `s.split(sep)` is a character of `s`. */
  lemma {:induction false} SplitPiecesFromInput(s: string, sep: char, i: int, c: char)
    requires 0 <= i < |Split(s, sep)| && c !in s
    ensures c !in Split(s, sep)[i]
    decreases |s|
  {
    var k := Find(s, sep);
    if k != -1 {
      SplitUnfold(s, sep);
      if i > 0 {
        NotInSuffix(s, k + 1, c);
        SplitPiecesFromInput(s[k + 1..], sep, i - 1, c);
        ConsIndex(Split(s, sep), s[..k], Split(s[k + 1..], sep), i);
      } else {
        NotInPrefix(s, k, c);
      }
    }
  }

  lemma NotInSuffix(s: string, from: nat, c: char)
    requires from <= |s| && c !in s
    ensures c !in s[from..]
  {
    forall j | 0 <= j < |s| - from ensures s[from..][j] != c {
      assert s[from..][j] == s[from + j];
    }
  }

  lemma NotInPrefix(s: string, to: nat, c: char)
    requires to <= |s| && c !in s
    ensures c !in s[..to]
  {
    forall j | 0 <= j < to ensures s[..to][j] != c {
      assert s[..to][j] == s[j];
    }
  }

  lemma ConsIndex<T>(whole: seq<T>, first: T, rest: seq<T>, i: int)
    requires whole == [first] + rest && 0 < i < |whole|
    ensures whole[i] == rest[i - 1]
  {
  }

  /** The identity of a plane row as `handle_plane`'s `get_or_create` matches it. */
  datatype PlaneKey = PlaneKey(user: UserId, tailnumber: string, planeType: string)

  /** The descriptive fields `handle_plane` overwrites. */
  datatype PlaneAttrs = PlaneAttrs(manufacturer: string, model: string, catClass: string, tags: string)

  /** The plane table: at most one row per key. */
  type PlaneStore = map<PlaneKey, PlaneAttrs>

  /** The fields of a row `get_or_create` has just created (the model's defaults; blank here). */
  const NewPlane: PlaneAttrs := PlaneAttrs("", "", "", "")

  /**
    The store side of `handle_plane`: `get_or_create` adds a row for a new
    key; the descriptive fields are then overwritten and saved, unless the
    save raises, in which case the row keeps what it had. No other row
    changes.
   */
  function UpsertPlane(store: PlaneStore, key: PlaneKey, attrs: PlaneAttrs, saveFails: bool): (s: PlaneStore)
    ensures s.Keys == store.Keys + {key}
    ensures forall k :: k in store && k != key ==> s[k] == store[k]
    ensures !saveFails ==> s[key] == attrs
    ensures saveFails && key in store ==> s[key] == store[key]
  {
    var created := if key in store then store else store[key := NewPlane];
    if saveFails then created else created[key := attrs]
  }

  /** A row `handle_flight`'s lookup accepts: the user's, with the tail number, and with the type when one is given. */
  predicate Matches(k: PlaneKey, user: UserId, tailnumber: string, planeType: Option<string>) {
    k.user == user && k.tailnumber == tailnumber && (planeType.Some? ==> k.planeType == planeType.value)
  }

  /**
    The plane table after `handle_flight`'s `get_or_create`. The sentinel is
    never looked up, and a missing tail number is not modelled, so neither
    changes the table. Otherwise a row the lookup accepts is used as it is
    (the first one when there are several), and when there is none a new
    row is created for the user, tail number and type, the type blank when
    the lookup has none.
   */
  function FlightPlaneRow(store: PlaneStore, q: PlaneQuery): (s: PlaneStore)
    ensures forall k :: k in store ==> k in s && s[k] == store[k]
    ensures q.UnknownPlane? || q.tailnumber.None? ==> s == store
    ensures q.Lookup? && q.tailnumber.Some? ==>
      && (exists k :: k in s && Matches(k, q.user, q.tailnumber.value, q.planeType))
      && ((exists k :: k in store && Matches(k, q.user, q.tailnumber.value, q.planeType)) ==> s == store)
      && s.Keys <= store.Keys + {PlaneKey(q.user, q.tailnumber.value, if q.planeType.Some? then q.planeType.value else "")}
  {
    match q
    case UnknownPlane => store
    case Lookup(tail, user, planeType) =>
      if tail.None? || exists k :: k in store && Matches(k, user, tail.value, planeType) then store
      else
        var key := PlaneKey(user, tail.value, if planeType.Some? then planeType.value else "");
        assert Matches(key, user, tail.value, planeType);
        store[key := NewPlane]
  }

  /**
    Two plane lines with the same user, tail number and type touch one row:
    the second upsert overwrites the first's fields instead of adding a
    duplicate, and the table grows by at most one row.
   */
  lemma SecondUpsertOverwrites(store: PlaneStore, key: PlaneKey, first: PlaneAttrs, second: PlaneAttrs)
    ensures var s := UpsertPlane(UpsertPlane(store, key, first, false), key, second, false);
      && s.Keys == store.Keys + {key}
      && s[key] == second
      && |s| <= |store| + 1
  {
    var s := UpsertPlane(UpsertPlane(store, key, first, false), key, second, false);
    assert |s.Keys| <= |store.Keys| + |{key}|;
  }
}

=== FILE: pystr.dfy ===
/**
  The Python 2 byte-string operations the importer applies to header titles
  and tag lists, on `seq<char>`. Python 2 `str` methods work on bytes: `upper()`
  maps only the ASCII letters `a`-`z`, and `strip()` removes the six ASCII
  whitespace characters.
 */
module PyStr {
  import opened Seqs

  /** The characters Python 2's `str.isspace` accepts, which `strip()` removes. */
  predicate IsSpace(c: char) {
    c == ' ' || c == '\t' || c == '\n' || c == '\r' || c == '\U{000B}' || c == '\U{000C}'
  }

  predicate IsLower(c: char) {
    'a' <= c <= 'z'
  }

  /** No character of `s` is a lower-case ASCII letter. */
  predicate NoLower(s: string) {
    forall i :: 0 <= i < |s| ==> !IsLower(s[i])
  }

  /** `s` neither begins nor ends with whitespace. */
  predicate IsStripped(s: string) {
    s == [] || (!IsSpace(s[0]) && !IsSpace(s[|s| - 1]))
  }

  /** No carriage return in `s` is directly followed by a line feed. */
  predicate NoCrlf(s: string) {
    forall k :: 0 <= k < |s| - 1 ==> !CrlfAt(s, k)
  }

  /** A carriage return at `k` directly followed by a line feed. */
  predicate CrlfAt(s: string, k: nat)
    requires k < |s| - 1
  {
    s[k] == '\r' && s[k + 1] == '\n'
  }

  /** Python 2's upper-casing of one byte: `a`-`z` become `A`-`Z` letter for letter, anything else is kept. */
  function UpperChar(c: char): (u: char)
    ensures IsLower(c) ==> 'A' <= u <= 'Z' && u as int - 'A' as int == c as int - 'a' as int
    ensures !IsLower(c) ==> u == c
    ensures !IsLower(u)
    ensures IsSpace(u) <==> IsSpace(c)
  {
    if IsLower(c) then (c as int - 32) as char else c
  }

  /** `s.upper()`. */
  function Upper(s: string): (r: string)
    ensures |r| == |s|
    ensures forall i :: 0 <= i < |s| ==> r[i] == UpperChar(s[i])
    ensures NoLower(r)
  {
    seq(|s|, i requires 0 <= i < |s| => UpperChar(s[i]))
  }

  lemma UpperKeepsUpper(s: string)
    requires NoLower(s)
    ensures Upper(s) == s
  {
  }

  /** Every character of `s` is whitespace. */
  predicate AllSpace(s: string) {
    forall k :: 0 <= k < |s| ==> IsSpace(s[k])
  }

  /** Number of whitespace characters in `s` from index `from` onwards, up to the first other character. */
  function SpacesFrom(s: string, from: nat): (n: nat)
    requires from <= |s|
    ensures from + n <= |s|
    decreases |s| - from
  {
    if from < |s| && IsSpace(s[from]) then 1 + SpacesFrom(s, from + 1) else 0
  }

  /** Number of whitespace characters in `s` just before index `upto`, back to the first other character. */
  function SpacesBefore(s: string, upto: nat): (n: nat)
    requires upto <= |s|
    ensures n <= upto
  {
    if upto > 0 && IsSpace(s[upto - 1]) then 1 + SpacesBefore(s, upto - 1) else 0
  }

  /** Number of whitespace characters at the start of `s`. */
  function LeadingSpaces(s: string): (n: nat)
    ensures n <= |s|
  {
    SpacesFrom(s, 0)
  }

  /** Number of whitespace characters at the end of `s`. */
  function TrailingSpaces(s: string): (n: nat)
    ensures n <= |s|
  {
    SpacesBefore(s, |s|)
  }

  lemma {:induction false} SpacesFromBound(s: string, from: nat)
    requires from <= |s|
    ensures AllSpace(s[from..from + SpacesFrom(s, from)])
    ensures from + SpacesFrom(s, from) < |s| ==> !IsSpace(s[from + SpacesFrom(s, from)])
    decreases |s| - from
  {
    if from < |s| && IsSpace(s[from]) {
      SpacesFromBound(s, from + 1);
      var n := SpacesFrom(s, from + 1);
      assert SpacesFrom(s, from) == n + 1;
      var t := s[from..from + n + 1];
      var u := s[from + 1..from + 1 + n];
      assert AllSpace(u);
      forall k | 0 <= k < |t| ensures IsSpace(t[k]) {
        if k == 0 {
          assert t[0] == s[from];
        } else {
          assert t[k] == u[k - 1];
          assert IsSpace(u[k - 1]);
        }
      }
    }
  }

  lemma {:induction false} SpacesBeforeBound(s: string, upto: nat)
    requires upto <= |s|
    ensures AllSpace(s[upto - SpacesBefore(s, upto)..upto])
    ensures SpacesBefore(s, upto) < upto ==> !IsSpace(s[upto - 1 - SpacesBefore(s, upto)])
  {
    if upto > 0 && IsSpace(s[upto - 1]) {
      SpacesBeforeBound(s, upto - 1);
      var n := SpacesBefore(s, upto - 1);
      assert SpacesBefore(s, upto) == n + 1;
      var t := s[upto - 1 - n..upto];
      var u := s[upto - 1 - n..upto - 1];
      assert AllSpace(u);
      forall k | 0 <= k < |t| ensures IsSpace(t[k]) {
        if k == n {
          assert t[n] == s[upto - 1];
        } else {
          assert t[k] == u[k];
          assert IsSpace(u[k]);
        }
      }
    }
  }

  lemma LeadingSpacesBound(s: string)
    ensures AllSpace(s[..LeadingSpaces(s)])
    ensures LeadingSpaces(s) < |s| ==> !IsSpace(s[LeadingSpaces(s)])
  {
    SpacesFromBound(s, 0);
  }

  lemma TrailingSpacesBound(s: string)
    ensures AllSpace(s[|s| - TrailingSpaces(s)..])
    ensures TrailingSpaces(s) < |s| ==> !IsSpace(s[|s| - 1 - TrailingSpaces(s)])
  {
    SpacesBeforeBound(s, |s|);
    var n := TrailingSpaces(s);
    assert n == SpacesBefore(s, |s|);
    assert s[|s| - n..] == s[|s| - n..|s|];
  }

  /** `s.strip()`: drops the longest whitespace prefix and suffix. */
  function Strip(s: string): (r: string)
    ensures |r| <= |s|
    ensures IsStripped(r)
  {
    var t := s[LeadingSpaces(s)..];
    LeadingSpacesBound(s);
    TrailingSpacesBound(t);
    t[..|t| - TrailingSpaces(t)]
  }

  /**
    What `strip()` removes: `Strip(s)` is a slice of `s` with only whitespace
    before it and after it, and a string without surrounding whitespace is
    returned as it is.
   */
  lemma StripRemovesOnlySpace(s: string)
    ensures LeadingSpaces(s) + |Strip(s)| <= |s|
    ensures Strip(s) == s[LeadingSpaces(s)..LeadingSpaces(s) + |Strip(s)|]
    ensures AllSpace(s[..LeadingSpaces(s)])
    ensures AllSpace(s[LeadingSpaces(s) + |Strip(s)|..])
    ensures IsStripped(s) ==> Strip(s) == s
  {
    LeadingSpacesBound(s);
    StripIsSlice(s);
    StripLeavesSpaceAfter(s);
    StripKeepsStripped(s);
  }

  lemma StripIsSlice(s: string)
    ensures LeadingSpaces(s) + |Strip(s)| <= |s|
    ensures Strip(s) == s[LeadingSpaces(s)..LeadingSpaces(s) + |Strip(s)|]
  {
    var a := LeadingSpaces(s);
    var t := s[a..];
    var m := |t| - TrailingSpaces(t);
    assert Strip(s) == t[..m];
    assert t[..m] == s[a..a + m];
  }

  lemma StripLeavesSpaceAfter(s: string)
    ensures LeadingSpaces(s) + |Strip(s)| <= |s|
    ensures AllSpace(s[LeadingSpaces(s) + |Strip(s)|..])
  {
    var a := LeadingSpaces(s);
    var t := s[a..];
    var m := |t| - TrailingSpaces(t);
    assert |Strip(s)| == m;
    TrailingSpacesBound(t);
    assert t[m..] == s[a + m..];
  }

  lemma StripKeepsStripped(s: string)
    ensures IsStripped(s) ==> Strip(s) == s
  {
    if IsStripped(s) && s != [] {
      assert LeadingSpaces(s) == 0;
      assert TrailingSpaces(s) == 0;
      assert s[0..] == s;
    }
  }

  /** `s.replace(c, '')`: every occurrence of `c` dropped, all else kept in order. */
  function Remove(s: string, c: char): (r: string)
    ensures |r| <= |s|
    ensures forall x :: x in r <==> x in s && x != c
    ensures c !in s ==> r == s
  {
    if s == [] then [] else (if s[0] == c then [] else [s[0]]) + Remove(s[1..], c)
  }

  /**
    Removal works piece by piece: removing from a concatenation removes from
    each part. With `RemoveSingle` (the character `c` goes, any other stays)
    this fixes the order and the multiplicity of what is kept.
   */
  lemma {:induction false} RemoveAppend(a: string, b: string, c: char)
    ensures Remove(a + b, c) == Remove(a, c) + Remove(b, c)
    decreases |a|
  {
    if a == [] {
      assert a + b == b;
    } else {
      var x, t := a[0], a[1..];
      RemoveAppend(t, b, c);
      RemoveCons(x, t + b, c);
      RemoveCons(x, t, c);
      HeadTail(a, b);
      AppendAssoc(if x == c then [] else [x], Remove(t, c), Remove(b, c));
    }
  }

  lemma RemoveSingle(x: char, c: char)
    ensures Remove([x], c) == if x == c then [] else [x]
  {
    RemoveCons(x, [], c);
  }

  /** Removing from a string with a known first character. */
  lemma RemoveCons(x: char, t: string, c: char)
    ensures Remove([x] + t, c) == (if x == c then [] else [x]) + Remove(t, c)
  {
    assert ([x] + t)[1..] == t;
  }

  /** Removal drops exactly the occurrences of `c`. */
  lemma {:induction false} RemoveCount(s: string, c: char)
    ensures |Remove(s, c)| == |s| - Occurrences(s, c)
    decreases |s|
  {
    if s != [] {
      RemoveCount(s[1..], c);
    }
  }

  /**
    `s.replace("\r\n", " ")`: a left-to-right scan that turns each CR LF pair
    into one space. It never lengthens the string, and the first character
    is kept unless it starts a pair.
   */
  function ReplaceCrlf(s: string): (r: string)
    ensures |r| <= |s|
    ensures |s| > 0 ==> |r| > 0 && r[0] == (if |s| >= 2 && s[0] == '\r' && s[1] == '\n' then ' ' else s[0])
    decreases |s|
  {
    if |s| >= 2 && s[0] == '\r' && s[1] == '\n' then " " + ReplaceCrlf(s[2..])
    else if s == [] then []
    else [s[0]] + ReplaceCrlf(s[1..])
  }

  /** No CR LF pair survives the replacement. */
  lemma {:induction false} ReplaceCrlfRemovesPairs(s: string)
    ensures NoCrlf(ReplaceCrlf(s))
    decreases |s|
  {
    if |s| >= 2 && s[0] == '\r' && s[1] == '\n' {
      ReplaceCrlfRemovesPairs(s[2..]);
      NoCrlfCons(' ', ReplaceCrlf(s[2..]));
    } else if s != [] {
      var t := s[1..];
      ReplaceCrlfRemovesPairs(t);
      assert s[0] == '\r' && t != [] ==> ReplaceCrlf(t)[0] != '\n';
      NoCrlfCons(s[0], ReplaceCrlf(t));
    }
  }

  /**
    The scan has no state beyond a pending CR: cutting the input anywhere
    except between the two halves of a CR LF pair, the parts are replaced
    separately.
   */
  lemma {:induction false} ReplaceCrlfAppend(a: string, b: string)
    requires !(a != [] && b != [] && a[|a| - 1] == '\r' && b[0] == '\n')
    ensures ReplaceCrlf(a + b) == ReplaceCrlf(a) + ReplaceCrlf(b)
    decreases |a|
  {
    if a == [] {
      assert a + b == b;
    } else if |a| >= 2 && a[0] == '\r' && a[1] == '\n' {
      var t := a[2..];
      ReplaceCrlfAppend(t, b);
      ReplaceCrlfPairCons(t + b);
      ReplaceCrlfPairCons(t);
      HeadTail2(a, b);
      AppendAssoc(" ", ReplaceCrlf(t), ReplaceCrlf(b));
    } else {
      var x, t := a[0], a[1..];
      assert t != [] ==> (t + b)[0] == t[0];
      ReplaceCrlfAppend(t, b);
      ReplaceCrlfCharCons(x, t + b);
      ReplaceCrlfCharCons(x, t);
      HeadTail(a, b);
      AppendAssoc([x], ReplaceCrlf(t), ReplaceCrlf(b));
    }
  }

  lemma ReplaceCrlfPairCons(t: string)
    ensures ReplaceCrlf("\r\n" + t) == " " + ReplaceCrlf(t)
  {
    assert ("\r\n" + t)[2..] == t;
  }

  lemma ReplaceCrlfCharCons(x: char, t: string)
    requires !(x == '\r' && t != [] && t[0] == '\n')
    ensures ReplaceCrlf([x] + t) == [x] + ReplaceCrlf(t)
  {
    assert ([x] + t)[1..] == t;
  }

  /** Each CR LF pair becomes exactly one space, wherever it stands, and the text around it is replaced on its own. */
  lemma ReplaceCrlfAtPair(a: string, b: string)
    ensures ReplaceCrlf(a + "\r\n" + b) == ReplaceCrlf(a) + " " + ReplaceCrlf(b)
  {
    var p := "\r\n" + b;
    assert a + "\r\n" + b == a + p;
    ReplaceCrlfAppend(a, p);
    assert p[2..] == b;
  }

  /** The replacement brings in no character other than a space. */
  lemma {:induction false} ReplaceCrlfAddsOnlySpaces(s: string)
    ensures forall x :: x in ReplaceCrlf(s) ==> x in s || x == ' '
    decreases |s|
  {
    if |s| >= 2 && s[0] == '\r' && s[1] == '\n' {
      var t := s[2..];
      ReplaceCrlfAddsOnlySpaces(t);
      forall x | x in t ensures x in s {
        var i :| 0 <= i < |t| && t[i] == x;
        assert s[i + 2] == x;
      }
    } else if s != [] {
      var t := s[1..];
      ReplaceCrlfAddsOnlySpaces(t);
      forall x | x in t ensures x in s {
        var i :| 0 <= i < |t| && t[i] == x;
        assert s[i + 1] == x;
      }
    }
  }

  /** A string without CR LF comes back unchanged. */
  lemma {:induction false} ReplaceCrlfIdentity(s: string)
    requires NoCrlf(s)
    ensures ReplaceCrlf(s) == s
    decreases |s|
  {
    if s != [] {
      if |s| >= 2 {
        assert !CrlfAt(s, 0);
      }
      NoCrlfTail(s);
      ReplaceCrlfIdentity(s[1..]);
      assert [s[0]] + s[1..] == s;
    }
  }

  /** The last character survives the replacement unless it is a line feed. */
  lemma {:induction false} ReplaceCrlfKeepsLast(s: string)
    requires |s| > 0 && s[|s| - 1] != '\n'
    ensures |ReplaceCrlf(s)| > 0 && ReplaceCrlf(s)[|ReplaceCrlf(s)| - 1] == s[|s| - 1]
    decreases |s|
  {
    if |s| >= 2 && s[0] == '\r' && s[1] == '\n' {
      var t := s[2..];
      assert |t| > 0 && t[|t| - 1] == s[|s| - 1];
      ReplaceCrlfKeepsLast(t);
      LastThroughCons(' ', ReplaceCrlf(t), ReplaceCrlf(s), s[|s| - 1]);
    } else if |s| >= 2 {
      var t := s[1..];
      assert t[|t| - 1] == s[|s| - 1];
      ReplaceCrlfKeepsLast(t);
      LastThroughCons(s[0], ReplaceCrlf(t), ReplaceCrlf(s), s[|s| - 1]);
    }
  }

  lemma LastThroughCons(c: char, r: string, whole: string, last: char)
    requires r != [] && r[|r| - 1] == last && whole == [c] + r
    ensures |whole| > 0 && whole[|whole| - 1] == last
  {
  }

  /** Putting a character in front of a string without CR LF creates a pair only with a leading line feed. */
  lemma NoCrlfCons(c: char, t: string)
    requires NoCrlf(t)
    requires c == '\r' && t != [] ==> t[0] != '\n'
    ensures NoCrlf([c] + t)
  {
    var u := [c] + t;
    forall k | 0 <= k < |u| - 1 ensures !CrlfAt(u, k) {
      if k > 0 {
        assert u[k] == t[k - 1] && u[k + 1] == t[k];
        assert !CrlfAt(t, k - 1);
      }
    }
  }

  /** A string without CR LF has none in its tail either. */
  lemma NoCrlfTail(s: string)
    requires s != [] && NoCrlf(s)
    ensures NoCrlf(s[1..])
  {
    var t := s[1..];
    forall k | 0 <= k < |t| - 1 ensures !CrlfAt(t, k) {
      assert !CrlfAt(s, k + 1);
    }
  }

  /** A string without surrounding whitespace keeps none after CR LF replacement: a pair can only have stood inside. */
  lemma ReplaceCrlfKeepsStripped(s: string)
    requires IsStripped(s)
    ensures IsStripped(ReplaceCrlf(s))
  {
    if s != [] {
      ReplaceCrlfKeepsLast(s);
    }
  }

  /** `s.find(c)`: the index of the first `c`, or -1 when there is none. */
  function Find(s: string, c: char): (i: int)
    ensures -1 <= i < |s|
    ensures i == -1 <==> c !in s
    ensures 0 <= i < |s| ==> s[i] == c && c !in s[..i]
  {
    if s == [] then -1
    else if s[0] == c then 0
    else
      var j := Find(s[1..], c);
      if j == -1 then -1
      else
        assert s[..j + 1] == [s[0]] + s[1..][..j];
        j + 1
  }

  /** `sep.join(pieces)`: empty for no pieces, otherwise starting with the first piece. */
  function Join(sep: string, pieces: seq<string>): (r: string)
    ensures pieces == [] ==> r == []
    ensures pieces != [] ==> |pieces[0]| <= |r| && r[..|pieces[0]|] == pieces[0]
  {
    if |pieces| == 0 then []
    else if |pieces| == 1 then pieces[0]
    else pieces[0] + sep + Join(sep, pieces[1..])
  }

  /**
    `s.split(sep)` for a one-character separator: there is one piece more than
    there are separators, no piece holds the separator, and joining the pieces
    with the separator gives `s` back.
   */
  function Split(s: string, sep: char): (pieces: seq<string>)
    ensures |pieces| == Occurrences(s, sep) + 1
    ensures forall i :: 0 <= i < |pieces| ==> sep !in pieces[i]
    ensures Join([sep], pieces) == s
    decreases |s|
  {
    var i := Find(s, sep);
    if i == -1 then
      [s]
    else
      var rest := Split(s[i + 1..], sep);
      SplitAtSeparator(s, sep, i);
      JoinCons([sep], s[..i], rest);
      ConsKeepsOut(s[..i], rest, sep);
      [s[..i]] + rest
  }

  /** One step of the split: the piece before the first separator, then the split of the rest. */
  lemma SplitUnfold(s: string, sep: char)
    requires sep in s
    ensures Split(s, sep) == [s[..Find(s, sep)]] + Split(s[Find(s, sep) + 1..], sep)
  {
  }

  /**
    The other half of the round trip: pieces free of the separator, joined
    with it, split back into exactly those pieces.
   */
  lemma {:induction false} SplitJoinRoundTrip(pieces: seq<string>, sep: char)
    requires pieces != []
    requires forall i :: 0 <= i < |pieces| ==> sep !in pieces[i]
    ensures Split(Join([sep], pieces), sep) == pieces
    decreases |pieces|
  {
    PiecesKeepOut(pieces, sep);
    if |pieces| == 1 {
      SplitWithoutSeparator(pieces[0], sep);
    } else {
      SplitJoinRoundTrip(pieces[1..], sep);
      SplitJoinStep(pieces[0], pieces[1..], sep);
      HeadTail(pieces, []);
    }
  }

  lemma PiecesKeepOut(pieces: seq<string>, sep: char)
    requires pieces != []
    requires forall i :: 0 <= i < |pieces| ==> sep !in pieces[i]
    ensures sep !in pieces[0]
    ensures forall i :: 0 <= i < |pieces| - 1 ==> sep !in pieces[1..][i]
  {
    forall i | 0 <= i < |pieces| - 1 ensures sep !in pieces[1..][i] {
      assert pieces[1..][i] == pieces[i + 1];
    }
  }

  lemma SplitWithoutSeparator(p: string, sep: char)
    requires sep !in p
    ensures Split(Join([sep], [p]), sep) == [p]
  {
  }

  /** The inductive step of `SplitJoinRoundTrip`: the first piece is split off at the first separator. */
  lemma SplitJoinStep(first: string, rest: seq<string>, sep: char)
    requires sep !in first && rest != []
    ensures Split(Join([sep], [first] + rest), sep) == [first] + Split(Join([sep], rest), sep)
  {
    var tail := Join([sep], rest);
    JoinCons([sep], first, rest);
    FindAfterPrefix(first, [sep] + tail, sep);
    var s := first + ([sep] + tail);
    assert first + [sep] + tail == s;
    SplitUnfold(s, sep);
    assert s[..|first|] == first;
    assert s[|first| + 1..] == tail;
  }

  /** The first `c` of `a + b` is the first of `b` when `a` holds none and `b` starts with one. */
  lemma FindAfterPrefix(a: string, b: string, c: char)
    requires c !in a && b != [] && b[0] == c
    ensures Find(a + b, c) == |a|
  {
    assert (a + b)[|a|] == c;
    assert forall j :: 0 <= j < |a| ==> (a + b)[j] == a[j];
    assert (a + b)[..|a| + 1][|a|] == c;
  }

  lemma ConsKeepsOut(first: string, rest: seq<string>, c: char)
    requires c !in first
    requires forall i :: 0 <= i < |rest| ==> c !in rest[i]
    ensures forall i :: 0 <= i < |[first] + rest| ==> c !in ([first] + rest)[i]
  {
    var all := [first] + rest;
    forall i | 0 <= i < |all| ensures c !in all[i] {
      if i > 0 {
        assert all[i] == rest[i - 1];
      }
    }
  }

  lemma JoinCons(sep: string, first: string, rest: seq<string>)
    requires rest != []
    ensures Join(sep, [first] + rest) == first + sep + Join(sep, rest)
  {
    assert ([first] + rest)[1..] == rest;
  }

  /** The number of occurrences of `c` in `s`. */
  function Occurrences(s: string, c: char): (n: nat)
    ensures n == 0 <==> c !in s
    ensures n <= |s|
    decreases |s|
  {
    if s == [] then 0
    else
      var n := Occurrences(s[1..], c);
      assert c in s <==> s[0] == c || c in s[1..];
      (if s[0] == c then 1 else 0) + n
  }

  /** Cutting `s` at its first separator splits its separator count as one plus the rest's. */
  lemma {:induction false} SplitAtSeparator(s: string, sep: char, i: int)
    requires 0 <= i < |s| && s[i] == sep && sep !in s[..i]
    ensures s == s[..i] + [sep] + s[i + 1..]
    ensures Occurrences(s, sep) == Occurrences(s[i + 1..], sep) + 1
    decreases i
  {
    assert s == s[..i] + [sep] + s[i + 1..];
    if i > 0 {
      var t := s[1..];
      assert s[0] == s[..i][0];
      assert t[..i - 1] == s[..i][1..];
      assert t[i - 1] == sep;
      SplitAtSeparator(t, sep, i - 1);
      assert t[i..] == s[i + 1..];
    }
  }

  predicate IsDigit(c: char) {
    '0' <= c <= '9'
  }

  /** `str(n)` for a natural number: its decimal digits, most significant first, with no leading zero. */
  function DecimalString(n: nat): (r: string)
    ensures r != []
    ensures forall i :: 0 <= i < |r| ==> IsDigit(r[i])
    ensures n > 0 <==> r[0] != '0'
  {
    var d := ['0' + (n % 10) as char];
    if n < 10 then d else DecimalString(n / 10) + d
  }

  /** The number a string of decimal digits denotes, most significant digit first. */
  function DecimalValue(r: string): nat
    requires forall i :: 0 <= i < |r| ==> IsDigit(r[i])
    decreases |r|
  {
    if r == [] then 0 else assert IsDigit(r[|r| - 1]); 10 * DecimalValue(r[..|r| - 1]) + (r[|r| - 1] as int - '0' as int)
  }

  /** `str(n)` denotes `n`: reading its digits back gives the number. */
  lemma {:induction false} DecimalRoundTrip(n: nat)
    ensures DecimalValue(DecimalString(n)) == n
    decreases n
  {
    var r := DecimalString(n);
    var d := ['0' + (n % 10) as char];
    if n >= 10 {
      DecimalRoundTrip(n / 10);
      assert r == DecimalString(n / 10) + d;
      assert r[..|r| - 1] == DecimalString(n / 10);
    }
    assert r[|r| - 1] == d[0];
  }
}

=== FILE: seqs.dfy ===
/** Element-wise mapping over sequences, used for the per-kind reference results. */
module Seqs {

  function MapSeq<A, B>(f: A -> B, xs: seq<A>): (ys: seq<B>)
    ensures |ys| == |xs|
    ensures forall i :: 0 <= i < |xs| ==> ys[i] == f(xs[i])
  {
    seq(|xs|, i requires 0 <= i < |xs| => f(xs[i]))
  }

  lemma MapSeqAppend<A, B>(f: A -> B, xs: seq<A>, ys: seq<A>)
    ensures MapSeq(f, xs + ys) == MapSeq(f, xs) + MapSeq(f, ys)
  {
    var l, r := MapSeq(f, xs + ys), MapSeq(f, xs) + MapSeq(f, ys);
    forall i | 0 <= i < |l| ensures l[i] == r[i] {
      if i < |xs| { assert (xs + ys)[i] == xs[i]; } else { assert (xs + ys)[i] == ys[i - |xs|]; }
    }
  }

  /** A non-empty sequence is its head followed by its tail, also in front of a suffix. */
  lemma HeadTail<T>(a: seq<T>, b: seq<T>)
    requires a != []
    ensures a == [a[0]] + a[1..]
    ensures a + b == [a[0]] + (a[1..] + b)
  {
  }

  /** The same, for a two-element head. */
  lemma HeadTail2<T>(a: seq<T>, b: seq<T>)
    requires |a| >= 2
    ensures a == [a[0], a[1]] + a[2..]
    ensures a + b == [a[0], a[1]] + (a[2..] + b)
  {
  }

  lemma AppendAssoc<T>(x: seq<T>, y: seq<T>, z: seq<T>)
    ensures x + (y + z) == (x + y) + z
  {
  }
}

=== FILE: status.dfy ===
/**
  `status_decorator`: the Database import renders a line the way the
  preview does and appends one banner row saying whether the line was
  entered.
 */
module Status {

  /**
    The value the handlers pass as `message`. It is either a Python string
    (`Text`) or another object, a form's error dictionary or a caught
    exception (`Problem`), kept as its `%s` rendering. Only a string can
    compare equal to `'good'`.
   */
  datatype Message = Text(text: string) | Problem(rendered: string)

  /** The message the handlers use for a line that was saved. */
  const Good: Message := Text("good")

  /** `"%s" % message`. */
  function Rendering(m: Message): string {
    match m
    case Text(t) => t
    case Problem(r) => r
  }

  const GoodRowOpen: string := "<tr class='good'>"

  const BadRowOpen: string := "<tr class='bad'>"

  /** The row appended for a line that was entered, with the source's literal line break and indentation. */
  const GoodBanner: string := GoodRowOpen + "<td colspan='20'>Line entered successfully\n        </td></tr>"

  /** The prefix of the row appended for a line that was not entered. */
  const BadBannerHead: string := BadRowOpen + "<td colspan='20'>The above line did not\n        get entered because it had an error:<br>"

  const BadBannerTail: string := "</td></tr>"

  /** The row appended for a line that was not entered, with the message embedded. */
  function BadBanner(detail: string): (b: string)
    ensures |b| == |BadBannerHead| + |detail| + |BadBannerTail|
    ensures b[..|BadBannerHead|] == BadBannerHead
    ensures b[|BadBannerHead|..|b| - |BadBannerTail|] == detail
    ensures b[|b| - |BadBannerTail|..] == BadBannerTail
  {
    var b := BadBannerHead + detail + BadBannerTail;
    assert b[..|BadBannerHead|] == BadBannerHead;
    assert b[|BadBannerHead|..|b| - |BadBannerTail|] == detail;
    assert b[|b| - |BadBannerTail|..] == BadBannerTail;
    b
  }

  /**
    `status_decorator(func, line, message)`: the rendering `render(line)`
    followed by exactly one banner row. The banner is the success row if and
    only if the message is the string `'good'`; otherwise it is the failure
    row carrying the message's rendering.
   */
  function StatusDecorator<L>(render: L -> string, line: L, message: Message): (r: string)
    ensures |r| > |render(line)|
    ensures r[..|render(line)|] == render(line)
    ensures r[|render(line)|..] == GoodBanner <==> message == Good
    ensures message != Good ==> r[|render(line)|..] == BadBanner(Rendering(message))
  {
    var result := render(line);
    var banner := if message == Text("good") then GoodBanner else BadBanner(Rendering(message));
    assert GoodRowOpen[11] == 'g' && BadRowOpen[11] == 'b';
    assert GoodBanner[11] == GoodRowOpen[11];
    assert BadBanner(Rendering(message))[11] == BadBannerHead[11] == BadRowOpen[11];
    assert (result + banner)[|result|..] == banner;
    result + banner
  }

  /** The failure row gives the message back: its text between the fixed head and tail is the message's rendering. */
  lemma FailureBannerCarriesMessage<L>(render: L -> string, line: L, message: Message)
    requires message != Good
    ensures var r := StatusDecorator(render, line, message);
            var b := r[|render(line)|..];
            |b| >= |BadBannerHead| + |BadBannerTail| &&
            b[|BadBannerHead|..|b| - |BadBannerTail|] == Rendering(message)
  {
  }
}

=== FILE: wrappers.dfy ===
/** Failure-carrying datatypes shared by the import model. */
module Wrappers {

  /** A value that may be absent: Python's `None` versus a present value. */
  datatype Option<+T> = None | Some(value: T)

  /** The outcome of a step that either produces a value or raises. */
  datatype Result<+T, +E> = Ok(value: T) | Err(error: E)
}
